=== FILE: README.md ===
# TaskFlow state model in Dafny

This is a model of the client-side state of TaskFlow, a React/Redux task and project manager. It covers:

- The two Redux slices. The task store holds tasks that form a tree: each task points at its parent through `parentTaskId`, and each parent caches its children's ids in `subtasks`. The project store is a flat list of projects. Every reducer is a pure function from the old list to the new one.
- The views' derivations from that state:
  - the two-level task hierarchy and its status toggle;
  - the overview figures and the progress charts of a project;
  - validation and team-member parsing in the project form;
  - the stand-alone dashboard, with its own `pending`/`completed` task list, search, priority sort and counters;
  - the project search, the home-page counters and recent list, the project page's lookup, and the navigation highlight.

The model has no clock and no id generator. Every operation that stamps a time or makes an id takes `now` and `freshId` as parameters. Where a view compares dates, `dateOf: string -> Option<int>` stands in for `new Date(...)`. `None` is an invalid date, and every comparison with it is false, as in JavaScript.

Layout:

| file | modules |
|---|---|
| `options.dfy` | `Options` |
| `seqs.dfy` | `Seqs`: `filter`, `findIndex` and `splice` as sequence functions, plus facts about counting and subsequences |
| `text.dfy` | `Text`: `trim`, `toLowerCase`, `includes`, `startsWith`, `split`, `join` |
| `tally.dfy` | `Tally`: the `reduce`-built histograms |
| `stable_sort.dfy` | `StableSort`: `Array.prototype.sort` with a rank comparator |
| `tasks_slice.dfy`, `tasks_slice_lemmas.dfy` | `TasksSlice`, `TasksSliceLemmas` |
| `projects_slice.dfy` | `ProjectsSlice` |
| `task_hierarchy.dfy` | `TaskHierarchy` |
| `project_stats.dfy`, `project_progress.dfy` | `ProjectStats`, `ProjectProgress` |
| `project_form.dfy` | `ProjectForm` |
| `main_feature.dfy` | `MainFeature` |
| `pages.dfy` | `ProjectsPage`, `HomePage`, `ProjectDetailPage` |
| `layout.dfy` | `Layout` |

Behaviour the code has and a reader might not expect, all modelled as written:

- In `validateForm`, the date-order error needs both dates to parse. An end date that does not parse passes the check, so "valid" guarantees that the end date is after the start date only when both are real dates.
- `deleteTask` strips the id from every `subtasks` list, but it leaves a child's `parentTaskId` pointing at the deleted task. Such a child is then hidden from the hierarchy view: it is not a root, and its parent is not shown.
- `deleteProject` receives only the project list, so a deleted project's tasks stay in the task store.
- The navigation's prefix test has no path-segment boundary, so `/projectsX` highlights Projects.
- The project search has no empty-term guard. The empty string occurs in every string, so an empty term filters by status alone.

## Model

| member | source | states |
|---|---|---|
| TasksSliceLemmas.InitialTasksConsistent | src/store/slices/tasksSlice.js:5-58 | The seed tasks have distinct non-empty ids, and each task's `subtasks` is exactly the set of ids of the tasks whose parent it is |
| TasksSliceLemmas.InitialChildren | src/store/slices/tasksSlice.js:5-58 | In the seed data, task 1 is the parent of tasks 2 and 3, and no other id has children |
| TasksSlice.AddTask | src/store/slices/tasksSlice.js:78-93 | Appends one task: the payload with the fresh id, empty `subtasks` and the new `createdAt`. Earlier tasks keep their places and every field except `subtasks`. Only the first task with the parent id can change: it then holds the new id, keeps its old entries, stays duplicate-free if it was, and changes only by appending the new id when the id was not already there: the `includes` guard (line 90) leaves a parent that already lists the id exactly as it was. With no truthy parent, or none found, the old tasks are untouched |
| TasksSliceLemmas.AddTaskKeepsHierarchy | src/store/slices/tasksSlice.js:78-93 | Given a fresh id, adding a task keeps ids distinct and keeps every `subtasks` set equal to the set of its children found by `parentTaskId` |
| TasksSliceLemmas.AddTaskChildIds | src/store/slices/tasksSlice.js:78-85 | After an add, the children of any id are the old children plus the new task exactly when it names that parent |
| TasksSlice.UpdateTask | src/store/slices/tasksSlice.js:97-103 | Length is unchanged. An unknown id changes nothing. Only the first task with the id can change, and it becomes the shallow merge: fields the patch carries replace the old ones, and absent fields are kept |
| TasksSliceLemmas.UpdateTaskIdOnly | src/store/slices/tasksSlice.js:97-103 | A patch that carries only an id leaves the list as it was |
| TasksSliceLemmas.UpdateTaskWhole | src/store/slices/tasksSlice.js:97-103 | A patch carrying a whole task replaces the first task with that id by it, and nothing else |
| TasksSlice.DeleteTask | src/store/slices/tasksSlice.js:104-111 | No survivor has the id, and no `subtasks` list contains it. There is one survivor for each task with another id |
| TasksSliceLemmas.DeleteTaskSurvivors | src/store/slices/tasksSlice.js:104-111 | Every task with another id survives with only the id removed from its `subtasks`, a dangling `parentTaskId` included, and every survivor is such a task |
| TasksSliceLemmas.DeleteTaskKeepsOrder | src/store/slices/tasksSlice.js:106 | Survivors keep their relative order and every field except `subtasks` |
| TasksSliceLemmas.DeleteTaskIdempotent | src/store/slices/tasksSlice.js:104-111 | Deleting the same id twice equals deleting it once |
| TasksSliceLemmas.DeleteTaskChildIds | src/store/slices/tasksSlice.js:104-111 | After a delete, the children of any id are the old ones minus the deleted id |
| TasksSliceLemmas.DeleteTaskKeepsHierarchy | src/store/slices/tasksSlice.js:104-111 | Deleting keeps ids distinct and keeps the `subtasks` sets equal to the children found by `parentTaskId` |
| TasksSliceLemmas.DeleteUndoesAdd | src/store/slices/tasksSlice.js:78-111 | Deleting a task just added under a fresh id gives back the old list, including the parent's `subtasks` |
| TasksSlice.SetFilters | src/store/slices/tasksSlice.js:115-117 | Each filter the patch names takes the new value, and the others keep theirs |
| TasksSlice.SetFiltersEmpty | src/store/slices/tasksSlice.js:115-117 | A patch that names no criterion leaves the filters as they are |
| TasksSlice.SetFiltersTwice | src/store/slices/tasksSlice.js:115-117 | Two merges in a row equal one merge of the combined patch: each criterion the later patch names wins, and the rest come from the earlier one |
| TasksSlice.SetFiltersIdempotent | src/store/slices/tasksSlice.js:115-117 | Merging the same patch twice equals merging it once |
| TasksSlice.ReorderTasks | src/store/slices/tasksSlice.js:118-134 | A permutation: same length and same multiset of tasks, no field changed. It is a no-op when either id is missing |
| TasksSliceLemmas.ReorderBefore | src/store/slices/tasksSlice.js:125-130 | With distinct ids and `'before'`, the dragged task lands immediately before the target, and the other tasks keep their order |
| TasksSliceLemmas.ReorderAfter | src/store/slices/tasksSlice.js:125-130 | With distinct ids and any other position, the dragged task lands immediately after the target, and the other tasks keep their order |
| TasksSliceLemmas.ReorderOntoItselfStays | src/store/slices/tasksSlice.js:127-130 | Dropping a task onto itself leaves the list alone for `'before'`, and also for `'after'` at the last index |
| TasksSliceLemmas.ReorderOntoItselfSwaps | src/store/slices/tasksSlice.js:127-130 | Dropping a task onto itself with `'after'` anywhere else swaps it with its successor |
| TasksSliceLemmas.ReorderSwapsPair | src/store/slices/tasksSlice.js:118-130 | `[A, B]` reordered as (B onto A, `'before'`) is `[B, A]` |
| TasksSliceLemmas.ReorderKeepsHierarchy | src/store/slices/tasksSlice.js:118-134 | Reordering keeps ids distinct and keeps the `subtasks` sets equal to the scanned children |
| TasksSlice.MoveTaskToProject | src/store/slices/tasksSlice.js:135-143 | Only `projectId` can change, only on the first task with the id, and only when it differs. That task ends up in the target project |
| TasksSliceLemmas.MoveIdempotent | src/store/slices/tasksSlice.js:135-143 | Moving twice to the same project equals moving once |
| TasksSliceLemmas.MoveNoOp | src/store/slices/tasksSlice.js:139 | A move to the project the task is already in, or of a missing task, changes nothing |
| TasksSliceLemmas.MoveKeepsHierarchy | src/store/slices/tasksSlice.js:135-143 | Moving keeps ids distinct and keeps the `subtasks` sets equal to the scanned children |
| TasksSlice.FindIndexFirst | src/store/slices/tasksSlice.js:98 | `findIndex` returns index i exactly when i is the first position holding the id |
| ProjectsSlice.AddProject | src/store/slices/projectsSlice.js:47-54 | Appends one project after the untouched old ones. It carries the fresh id, progress 0 and the new `createdAt`, and the payload's other fields |
| ProjectsSlice.UpdateProject | src/store/slices/projectsSlice.js:57-63 | Length is unchanged. An unknown id changes nothing. Only the first project with the id changes, to the shallow merge of the patch |
| ProjectsSlice.UpdateProjectIdempotent | src/store/slices/projectsSlice.js:57-63 | Applying the same patch twice equals applying it once |
| ProjectsSlice.DeleteProject | src/store/slices/projectsSlice.js:64-67 | No project with the id is left. Every other project is kept as often as it occurs, and nothing new appears |
| ProjectsSlice.DeleteProjectKeepsOrder | src/store/slices/projectsSlice.js:65 | The survivors keep their order |
| ProjectsSlice.DeleteProjectIdempotent | src/store/slices/projectsSlice.js:64-67 | Deleting twice equals deleting once |
| ProjectsSlice.DeleteUndoesAddProject | src/store/slices/projectsSlice.js:47-67 | Deleting a project just added under a fresh id gives back the old list |
| ProjectsSlice.UpdateProjectProgress | src/store/slices/projectsSlice.js:68-74 | Only `progress` of the first project with the id changes. It is set to the given value, unclamped. A missing project changes nothing |
| ProjectsSlice.UpdateProgressLastWins | src/store/slices/projectsSlice.js:68-74 | Of two progress updates to one project, the last one wins |
| ProjectsSlice.FindProjectFirst | src/store/slices/projectsSlice.js:58 | `findIndex` returns index i exactly when i is the first position holding the id |
| TaskHierarchy.RootTasks | src/components/TaskHierarchy.jsx:154 | A task is a root exactly when it is listed and its `parentTaskId` is falsy (absent or empty) |
| TaskHierarchy.GetSubtasks | src/components/TaskHierarchy.jsx:156-158 | The children of an id are exactly the listed tasks whose `parentTaskId` is that id |
| TaskHierarchy.ScanKeepsOrder | src/components/TaskHierarchy.jsx:154-158 | Roots and children come out in list order, each as often as it is listed |
| TaskHierarchy.ScanAgreesWithCache | src/components/TaskHierarchy.jsx:156-158 | Under the hierarchy invariant, the ids the scan finds are exactly the parent's cached `subtasks` |
| TaskHierarchy.Render | src/components/TaskHierarchy.jsx:197-214 | The "No tasks found" message shows exactly when every task has a parent. Otherwise the tree's rows are shown |
| TaskHierarchy.ShownExactly | src/components/TaskHierarchy.jsx:204-213 | A task is shown at level 0 exactly when it is a root, and at level 1 exactly when its parent is a listed root. No row is deeper |
| TaskHierarchy.GrandchildHidden | src/components/TaskHierarchy.jsx:126-136 | Because a child row gets `subtasks={[]}`, a task whose parent has a parent is never shown |
| TaskHierarchy.DanglingHidden | src/components/TaskHierarchy.jsx:154-158 | A task whose parent id names no listed task is never shown |
| TaskHierarchy.ShownAtMostOnce | src/components/TaskHierarchy.jsx:204-213 | With distinct non-empty ids, no task is shown twice, and none is shown both as a root and as a child |
| TaskHierarchy.ToggledStatus | src/components/TaskHierarchy.jsx:181 | The toggle yields `completed` exactly when the status was not `completed`, and `todo` exactly when it was |
| TaskHierarchy.ToggleTwice | src/components/TaskHierarchy.jsx:181 | Toggling twice restores a status exactly when it is `completed` or `todo` |
| TaskHierarchy.HandleToggleStatus | src/components/TaskHierarchy.jsx:180-183 | The first task with the id becomes the toggled task, and every other task is unchanged |
| TaskHierarchy.ToggleChangesOnlyStatus | src/components/TaskHierarchy.jsx:180-183 | Toggling a listed task changes its status and no other field or task |
| TaskHierarchy.ToggleTwiceRestores | src/components/TaskHierarchy.jsx:180-183 | Toggling a `completed` or `todo` task twice gives back the list |
| ProjectStats.CompletionRate | src/components/ProjectStats.jsx:26 | With no tasks the rate is 0. Otherwise it is the whole percentage nearest to 100·completed/total, halves rounded up |
| ProjectStats.CompletionRateBounds | src/components/ProjectStats.jsx:26 | The rate lies in 0..100. It is 0 when nothing is completed, and 100 when everything is |
| ProjectStats.CompletionRateExamples | src/components/ProjectStats.jsx:26 | 3 of 6 gives 50, 1 of 8 gives 13 (12.5 rounded up), and no tasks gives 0 |
| ProjectStats.ComputeStats | src/components/ProjectStats.jsx:5-26 | completed + in-progress + todo ≤ total, with equality exactly when every status is one of the three. urgent ≤ total. overdue ≤ total − completed. completed, urgent and overdue are the counts of completed, urgent and overdue tasks: past due date, not completed. The rate is a percentage: for total > 0 it lies within half a point of 100 · completed / total, so it is `Math.round` of that ratio (line 26); it is 0 with no tasks |
| ProjectStats.StatusCountsAdd | src/components/ProjectStats.jsx:5-8 | The three status counts never overlap, and they add up to the total exactly when no task has another status |
| ProjectStats.UrgentCount | src/components/ProjectStats.jsx:10 | The urgent count is at most the number of tasks |
| ProjectStats.UrgentIgnoresStatus | src/components/ProjectStats.jsx:10 | The urgent count depends only on priorities: lists that agree on every priority agree on it |
| ProjectStats.OverdueCount | src/components/ProjectStats.jsx:11 | Overdue tasks are never completed, so the overdue and completed counts together are at most the total |
| ProjectStats.OverdueMonotone | src/components/ProjectStats.jsx:11 | A later clock never finds fewer overdue tasks |
| ProjectStats.InvalidDateNotOverdue | src/components/ProjectStats.jsx:11 | A task whose due date does not parse is never overdue |
| Tally.HistogramCounts | src/components/ProjectProgress.jsx:8-11 | Each bucket of the `reduce` histogram, read with `\|\| 0`, is the number of items with that key |
| Tally.HistogramKeys | src/components/ProjectProgress.jsx:8-11 | A key is present in the histogram exactly when some item carries it |
| ProjectProgress.StatusHistogramTotal | src/components/ProjectProgress.jsx:8-11 | Summed over distinct labels that cover every status present, the status buckets add up to the number of tasks |
| ProjectProgress.StatusVector | src/components/ProjectProgress.jsx:22-26 | The doughnut's data is the count of completed, in-progress and todo tasks, in that order, with a missing bucket read as 0 |
| ProjectProgress.PriorityVector | src/components/ProjectProgress.jsx:43-46 | The bar chart's data is the count of urgent, high, medium and low tasks, in that order, with a missing bucket read as 0 |
| ProjectProgress.StatusVectorSum | src/components/ProjectProgress.jsx:22-26 | The doughnut's data sums to at most the number of tasks, and to exactly that when every status is one of the three |
| ProjectProgress.PriorityVectorSum | src/components/ProjectProgress.jsx:43-46 | The bar chart's data sums to at most the number of tasks, and to exactly that when every priority is one of the four |
| ProjectProgress.ChartsIgnoreOrder | src/components/ProjectProgress.jsx:8-16 | Both histograms and both data vectors are unchanged by any permutation of the tasks |
| ProjectProgress.AppendBumpsBuckets | src/components/ProjectProgress.jsx:8-16 | One more task adds one to its status bucket and one to its priority bucket, and changes no other bucket |
| ProjectProgress.ChartsAgreeWithStats | src/components/ProjectProgress.jsx:22-26 | The doughnut plots the overview's completed, in-progress and todo counts, and the first bar is its urgent count |
| ProjectForm.InitForm | src/components/ProjectForm.jsx:11-20 | A new project's form holds the defaults: active, medium, today's date, `#6366f1`, and empty text. An edited project's form holds its title, description and end date, and its team joined by `', '`. Its non-empty status, priority, start date and colour are kept. An empty one takes its default from the `||` fallbacks: status `active`, priority `medium`, start date today, colour `#6366f1`. With today's date given, none of these four is empty |
| ProjectForm.ValidateForm | src/components/ProjectForm.jsx:24-43 | Valid exactly when there are no errors. Title and description errors appear exactly when the trimmed text is empty. A missing end date gives the "required" message. A present end date gets the order message exactly when both dates parse and the end is not after the start. Each error carries its own message. No other field gets an error |
| ProjectForm.ValidIff | src/components/ProjectForm.jsx:24-43 | The form is valid exactly when the trimmed title and description are non-empty, the end date is present, and it is not at or before a parsed start date |
| ProjectForm.EqualDatesRejected | src/components/ProjectForm.jsx:37 | Equal start and end dates are rejected with the order message |
| ProjectForm.ParseTeamMembers | src/components/ProjectForm.jsx:54-57 | Every parsed member is non-empty, trimmed and comma-free. Each non-empty trimmed piece between commas is kept as often as it occurs, and the members keep input order. There is at most one more member than there are commas |
| ProjectForm.ParseJoinRoundTrip | src/components/ProjectForm.jsx:54-57 | Parsing a list of clean members, joined with the `', '` the form uses at line 19, gives back the list |
| ProjectForm.EditKeepsTeam | src/components/ProjectForm.jsx:11-20 | Opening a project with a clean team in the form and parsing the field gives back the team |
| ProjectForm.HandleSubmit | src/components/ProjectForm.jsx:45-67 | An invalid form is rejected with its non-empty errors and dispatches nothing. A valid edit keeps the list length. A valid create appends one project after the old ones |
| ProjectForm.SubmitEdit | src/components/ProjectForm.jsx:60-61 | A valid edit changes only the edited project, which is the first one with its id. That project takes the form's title, description, status, priority, start and end dates, colour and parsed team, and keeps its id, progress and creation time |
| ProjectForm.SubmitCreate | src/components/ProjectForm.jsx:62-63 | A valid create gives the old list followed by one new project. The new project carries the form's fields and parsed team, with the fresh id, progress 0 and the new creation time |
| ProjectForm.HandleChange | src/components/ProjectForm.jsx:69-77 | Only the named field takes the new value. The set of fields with errors is unchanged. Only the named field's error is blanked |
| Text.Trim | src/components/ProjectForm.jsx:27 | The trimmed string has no white space at either end, and it is empty exactly when the input is all white space |
| Text.SplitJoin | src/components/ProjectForm.jsx:54-55 | Splitting at a separator that no piece contains, after joining with it, gives back the pieces |
| MainFeature.HandleSubmit | src/components/MainFeature.jsx:49-75 | A title blank after trimming changes nothing. A create appends one pending task carrying the form's fields, the fresh id and `now`. An edit keeps the length and rewrites every task with the edited id in place: the form's fields, with the original id, status and creation time |
| MainFeature.SubmitUntouchedEdit | src/components/MainFeature.jsx:93-103 | Opening a task in the form and saving it unchanged gives back the list, with only the modification time renewed |
| MainFeature.Flipped | src/components/MainFeature.jsx:80 | The toggle yields `completed` exactly when the status was not `completed`, and `pending` exactly when it was |
| MainFeature.ToggleTaskStatus | src/components/MainFeature.jsx:77-86 | Only tasks with the id change: they get the flipped status and the new modification time. Ids and the other tasks are untouched |
| MainFeature.ToggleTwiceRestores | src/components/MainFeature.jsx:77-86 | Toggling pending or completed tasks twice restores their status, and only the modification time differs |
| MainFeature.DeleteTask | src/components/MainFeature.jsx:88-91 | A task survives exactly when it has another id, as often as it occurs, and the survivors keep their order |
| MainFeature.DeleteUndoesCreate | src/components/MainFeature.jsx:56-91 | Deleting a task just created under an unused id gives back the list |
| MainFeature.DeleteIdempotent | src/components/MainFeature.jsx:88-91 | Deleting twice equals deleting once |
| MainFeature.GetFilteredTasks | src/components/MainFeature.jsx:105-122 | The shown list is ordered urgent, high, medium, low |
| MainFeature.FilteredIsSortedSelection | src/components/MainFeature.jsx:105-117 | The status filter (skipped for `'all'`) followed by the search (skipped for an empty query) selects exactly the tasks satisfying both conditions at once |
| MainFeature.FilteredTasksExactly | src/components/MainFeature.jsx:105-122 | The list is a permutation of the matching tasks. A task appears exactly when it is listed and matches. Tasks of equal priority keep their order from the state |
| MainFeature.NoFilterListsAll | src/components/MainFeature.jsx:105-122 | With `'all'` and no query every task is listed, each as often as it occurs |
| MainFeature.SearchIgnoresCase | src/components/MainFeature.jsx:112-116 | The search gives the same list for a query and its lower-case form |
| MainFeature.SearchNarrows | src/components/MainFeature.jsx:112-117 | A query only ever removes tasks from the list |
| MainFeature.GetTaskStats | src/components/MainFeature.jsx:135-142 | completed + pending ≤ total, with equality exactly when every status is one of the two. The urgent count covers only tasks that are not completed, so urgent + completed ≤ total |
| MainFeature.CreateBumpsStats | src/components/MainFeature.jsx:135-142 | A create adds one to the total and one to pending, leaves completed alone, and adds one to urgent exactly when the new task is urgent |
| StableSort.Sort | src/components/MainFeature.jsx:119-122 | The sorted list has the same elements and is ordered by rank |
| StableSort.SortIsStable | src/components/MainFeature.jsx:119-122 | For every rank, the elements of that rank come out in the order they went in |
| StableSort.SortSortedIsIdentity | src/components/MainFeature.jsx:119-122 | A list already in rank order is returned unchanged |
| ProjectsPage.FilteredProjects | src/pages/Projects.jsx:20-25 | A project is listed exactly when it matches the search and the status filter, as often as it occurs in the store. The list keeps store order |
| ProjectsPage.EmptyTermFiltersByStatusOnly | src/pages/Projects.jsx:21-24 | An empty term filters by status alone. With `'all'` as well, every project is listed, in order |
| ProjectsPage.StatusNarrows | src/pages/Projects.jsx:23 | The list under a specific status is a subsequence of the list under `'all'` with the same term |
| ProjectsPage.SearchIgnoresCase | src/pages/Projects.jsx:21-22 | The search gives the same list for a term and its lower-case form |
| ProjectsPage.DeleteThenFilter | src/pages/Projects.jsx:20-25 | Filtering after a delete equals removing the deleted id from the filtered list |
| Text.Includes | src/pages/Projects.jsx:21-22 | `includes` holds exactly when the query occurs at some offset |
| HomePage.ComputeHomeStats | src/pages/Home.jsx:33-38 | totalProjects is the number of projects. activeProjects ≤ totalProjects, and it equals the length of the Projects page list with an empty search and the `active` status filter. completed + pending ≤ number of tasks, with equality exactly when every status is todo, in-progress or completed |
| HomePage.HomeAgreesWithOverview | src/pages/Home.jsx:36-37 | Over the same tasks, completedTasks equals the overview's completed count, and pendingTasks is exactly the todo plus in-progress counts |
| HomePage.RecentPanel | src/pages/Home.jsx:109-124 | The empty state shows exactly when there are no projects. Otherwise the panel shows the first min(3, n) projects in store order |
| HomePage.NewProjectShowsWhileFew | src/pages/Home.jsx:124 | While there are fewer than three projects, a newly added one shows in the panel |
| ProjectDetailPage.ProjectTasks | src/pages/ProjectDetail.jsx:18 | A task is selected exactly when its `projectId` is the route id, as often as it occurs in the store. The selection keeps store order |
| ProjectDetailPage.ShowPage | src/pages/ProjectDetail.jsx:17-38 | "Project not found" shows exactly when no project has the id. Otherwise the page shows the first project with it, together with its tasks |
| ProjectDetailPage.DeletedProjectNotFound | src/pages/ProjectDetail.jsx:17-22 | After its project is deleted, a project page is the not-found page |
| ProjectDetailPage.TreeIsProjectScoped | src/pages/ProjectDetail.jsx:149 | Every row of the tasks tab is a task of this project, even when its parent lies elsewhere |
| ProjectDetailPage.TabsAgree | src/pages/ProjectDetail.jsx:145-153 | The overview counts exactly the project's tasks, and the progress tab plots the overview's status counts from the same tasks |
| Layout.IsActive | src/components/Layout.jsx:15-20 | The root link is active exactly on `/`. Any other link is active exactly when the path begins with its target |
| Layout.AtMostOneActive | src/components/Layout.jsx:10-20 | The two links are never both active, so at most one is highlighted |
| Layout.ProjectPageActivatesProjects | src/components/Layout.jsx:19 | A project's page `/projects/<id>` highlights Projects and not the dashboard |
| Layout.PrefixWithoutBoundary | src/components/Layout.jsx:19 | `/projectsX` highlights Projects, while `/project` highlights nothing |

## Left out

- Notifications (`toast`), `window.confirm` dialogs, `localStorage` loading and saving, animations, chart options, CSS mappings and routing have no effect on the modelled state.
- Id and time sources are parameters: `freshId`, `now`, and `today` for the form's default start date. For the task and project stores, the fresh id is required to be unused.
- Date parsing and formatting are not modelled. `dateOf` stands for `new Date(...)`, an integer `now` stands for the clock, and `formatDueDate` is not modelled at all.
- ProjectsPage.FilteredProjects: the empty-list message (src/pages/Projects.jsx:207-221) is not modelled. It renders a `FolderOpen` icon (line 210) that the `lucide-react` import on line 4 does not bring in. So whenever the filtered list is empty, for example with the status filter on `completed` or `on-hold` over the seed data, rendering throws a ReferenceError instead of showing the message. The model covers only the list itself.
- TasksSlice.AddTask: requires that the payload's `parentTaskId` is not the fresh id. A generated id cannot be known to the caller beforehand, so the case where a task is linked into its own `subtasks` is not modelled.
- ProjectStats.CompletionRate: computed with exact integer arithmetic. The floating-point rounding of `Math.round((c / t) * 100)` near halves is not modelled.
- Text.Trim: white space is a fixed ASCII-range set plus a few common Unicode spaces, not the full set JavaScript's `trim` removes.
- Text.ToLower: only `A`–`Z` are lowered. Other Unicode case mappings are not modelled.
- MainFeature.GetFilteredTasks: priority is one of the four values the form offers. A stored priority outside them, possible only through edited local storage, would make the comparator return `NaN`, whose order JavaScript leaves to the engine.
- MainFeature.GetFilteredTasks: the result is a new sequence. When neither filter applies, the source sorts the state array in place.
- The hierarchy view's JSX does not parse as written. Line 201 of `TaskHierarchy.jsx` (`onReorder={handleReorderTasks}`) sits between the empty-state `</div>` and `) : (` of the ternary at lines 197-202. That is a syntax error, and it also breaks the project page, which imports the component (`ProjectDetail.jsx`, line 8). `TaskHierarchy.Render` models the evident intent: lines 197-214 without line 201. The drag-and-drop handler the line names is left out; it calls an unimported `reorderTasks`. The reducer itself is modelled in `TasksSlice`. The add-subtask and edit handlers only log and are left out too.
- `setLoading` and `setError` in both slices only store a flag or message and are not modelled.
- ProjectsSlice.SetProjects: `setProjects` replaces the list with its payload, and there is no law about it beyond that replacement, so it has no contract of its own.
- Tally.HistogramCounts: keys are assumed not to name members of `Object.prototype`. The accumulator is a plain `{}`, so for a key such as `toString` the `|| 0` read finds the inherited function, and the bucket becomes a string, not a count. No reducer produces such a status or priority.
- Tally.HistogramKeys: keys are assumed not to name members of `Object.prototype`. For `__proto__` the assignment is ignored, so that key is never present.
- ProjectProgress.StatusHistogramTotal: keys are assumed not to name members of `Object.prototype`, for the reasons given for the two `Tally` lines above. The three chart vectors read fixed keys and are unaffected.
- ProjectProgress.AppendBumpsBuckets: keys are assumed not to name members of `Object.prototype`. For such a status or priority, the bucket grows by string concatenation, not by one.
- The collapse state of hierarchy rows is presentation only.
- Project progress is stored as the number the caller passes. It is modelled as an integer, not as a JavaScript number.
- A task's `description` on the dashboard is always a string, so the `?.` guard in the search never short-circuits.

=== FILE: layout.dfy ===
/** The side navigation (`src/components/Layout.jsx`): two links, and the
    rule that highlights the one for the current path. */
module Layout {
  import opened Text

  datatype NavItem = NavItem(name: string, href: string)

  const Root: string := "/"
  const ProjectsHref: string := "/projects"

  /** `navigation`. */
  const Navigation: seq<NavItem> := [NavItem("Dashboard", Root), NavItem("Projects", ProjectsHref)]

  /** `isActive`: the root link only on the root path itself, any other link
      on every path that begins with its target. */
  function IsActive(pathname: string, href: string): (b: bool)
    ensures href == Root ==> (b <==> pathname == Root)
    ensures href != Root ==> (b <==> |href| <= |pathname| && pathname[..|href|] == href)
  {
    if href == Root then pathname == Root else StartsWith(pathname, href)
  }

  /** The names of the highlighted links. */
  function ActiveItems(pathname: string): seq<string> {
    if IsActive(pathname, Root) then ["Dashboard"]
    else if IsActive(pathname, ProjectsHref) then ["Projects"]
    else []
  }

  /** At most one link is highlighted: the two rules never both hold, so the
      list of highlighted names is exactly the ones whose rule holds. */
  lemma AtMostOneActive(pathname: string)
    ensures !(IsActive(pathname, Root) && IsActive(pathname, ProjectsHref))
    ensures ActiveItems(pathname) == (if IsActive(pathname, Root) then ["Dashboard"] else []) + (if IsActive(pathname, ProjectsHref) then ["Projects"] else [])
    ensures |ActiveItems(pathname)| <= 1
  {
    if IsActive(pathname, Root) {
      assert |pathname| < |ProjectsHref|;
    }
  }

  /** A project's own page highlights Projects. */
  lemma ProjectPageActivatesProjects(id: string)
    ensures IsActive(ProjectsHref + "/" + id, ProjectsHref)
    ensures !IsActive(ProjectsHref + "/" + id, Root)
    ensures ActiveItems(ProjectsHref + "/" + id) == ["Projects"]
  {
    var path := ProjectsHref + "/" + id;
    assert path[..|ProjectsHref|] == ProjectsHref;
    assert |path| > 1;
  }

  /** The prefix rule has no boundary check: a path such as `/projectsX`
      highlights Projects too, while `/project` highlights nothing. */
  lemma PrefixWithoutBoundary()
    ensures IsActive("/projectsX", ProjectsHref)
    ensures ActiveItems("/project") == []
  {
    assert "/projectsX"[..|ProjectsHref|] == ProjectsHref;
  }
}

=== FILE: main_feature.dfy ===
/** The stand-alone task dashboard (`src/components/MainFeature.jsx`): a list
    of tasks held in component state, with create, edit, toggle and delete, a
    status filter and a search box, a priority ordering of what is shown, and
    four counters. The clock and the id generator are parameters: `now` is
    the ISO timestamp of the moment, `freshId` the id `Date.now()` yields. */
module MainFeature {
  import opened Options
  import opened Seqs
  import opened Text
  import opened StableSort

  /** The four priorities the form offers. */
  datatype Priority = Urgent | High | Medium | Low

  /** `priorityOrder`: urgent first, low last. */
  function Rank(p: Priority): int {
    match p
    case Urgent => 0
    case High => 1
    case Medium => 2
    case Low => 3
  }

  const Pending: string := "pending"
  const Completed: string := "completed"
  /** The status filter that lets every task through. */
  const All: string := "all"

  datatype Task = Task(
    id: string,
    title: string,
    description: string,
    priority: Priority,
    dueDate: string,
    category: string,
    status: string,
    createdAt: string,
    updatedAt: string)

  /** The fields the task form edits. */
  datatype TaskForm = TaskForm(
    title: string,
    description: string,
    priority: Priority,
    dueDate: string,
    category: string)

  /** The form before the first submit and after each one. */
  const BlankForm: TaskForm := TaskForm("", "", Medium, "", "")

  /** `editTask`: the form filled in from the task. */
  function EditForm(t: Task): TaskForm {
    TaskForm(t.title, t.description, t.priority, t.dueDate, t.category)
  }

  /** The task carries the form's five fields. */
  predicate FromForm(t: Task, form: TaskForm) {
    EditForm(t) == form
  }

  /** `newTask`: the form's fields under the id, status and creation time of
      the task being edited, or those of a new pending task. */
  function Submitted(form: TaskForm, editing: Option<Task>, freshId: string, now: string): Task {
    match editing
    case Some(e) => Task(e.id, form.title, form.description, form.priority, form.dueDate, form.category, e.status, e.createdAt, now)
    case None => Task(freshId, form.title, form.description, form.priority, form.dueDate, form.category, Pending, now, now)
  }

  /** `tasks.map(task => task.id === id ? t : task)`. */
  function ReplaceById(tasks: seq<Task>, id: string, t: Task): seq<Task> {
    seq(|tasks|, i requires 0 <= i < |tasks| => if tasks[i].id == id then t else tasks[i])
  }

  /** How one task of the list looks after saving an edit of `e`. */
  predicate EditedAs(before: Task, after: Task, e: Task, form: TaskForm, now: string) {
    if before.id == e.id then
      && after.id == e.id
      && FromForm(after, form)
      && after.status == e.status
      && after.createdAt == e.createdAt
      && after.updatedAt == now
    else after == before
  }

  /** `handleSubmit`. A title that is blank once trimmed changes nothing.
      Creating appends one pending task built from the form; saving an edit
      rewrites, in place, every task sharing the edited task's id, keeping
      that task's id, status and creation time. */
  function HandleSubmit(tasks: seq<Task>, form: TaskForm, editing: Option<Task>, freshId: string, now: string): (r: seq<Task>)
    ensures Trim(form.title) == "" ==> r == tasks
    ensures Trim(form.title) != "" && editing.None? ==>
              && |r| == |tasks| + 1
              && r[..|tasks|] == tasks
              && r[|tasks|].id == freshId && FromForm(r[|tasks|], form)
              && r[|tasks|].status == Pending && r[|tasks|].createdAt == now && r[|tasks|].updatedAt == now
    ensures Trim(form.title) != "" && editing.Some? ==>
              && |r| == |tasks|
              && forall i :: 0 <= i < |tasks| ==> EditedAs(tasks[i], r[i], editing.value, form, now)
  {
    if Trim(form.title) == "" then tasks
    else
      var t := Submitted(form, editing, freshId, now);
      match editing
      case Some(e) => ReplaceById(tasks, e.id, t)
      case None =>
        assert (tasks + [t])[..|tasks|] == tasks;
        tasks + [t]
  }

  /** Opening a task in the form and saving it untouched leaves the list as it
      was, except that every task with that id becomes the opened task with a
      new modification time. */
  lemma SubmitUntouchedEdit(tasks: seq<Task>, t: Task, freshId: string, now: string)
    requires Trim(t.title) != ""
    ensures var r := HandleSubmit(tasks, EditForm(t), Some(t), freshId, now);
            && |r| == |tasks|
            && forall i :: 0 <= i < |tasks| ==> r[i] == if tasks[i].id == t.id then t.(updatedAt := now) else tasks[i]
  {
  }

  /** The status a toggle gives: completed becomes pending, anything else
      becomes completed. */
  function Flipped(status: string): (s: string)
    ensures s == Completed <==> status != Completed
    ensures s == Pending <==> status == Completed
  {
    if status == Completed then Pending else Completed
  }

  /** `toggleTaskStatus`: every task with the id gets the other status and a
      new modification time; the rest are untouched. */
  function ToggleTaskStatus(tasks: seq<Task>, id: string, now: string): (r: seq<Task>)
    ensures |r| == |tasks|
    ensures forall i :: 0 <= i < |tasks| ==>
              && r[i].id == tasks[i].id
              && (tasks[i].id != id ==> r[i] == tasks[i])
              && (tasks[i].id == id ==> r[i] == tasks[i].(status := Flipped(tasks[i].status), updatedAt := now))
  {
    seq(|tasks|, i requires 0 <= i < |tasks| =>
      if tasks[i].id == id then tasks[i].(status := Flipped(tasks[i].status), updatedAt := now) else tasks[i])
  }

  /** Toggling twice gives back every pending or completed task with only its
      modification time changed. */
  lemma ToggleTwiceRestores(tasks: seq<Task>, id: string, now: string, later: string)
    requires forall i :: 0 <= i < |tasks| && tasks[i].id == id ==> tasks[i].status == Pending || tasks[i].status == Completed
    ensures var r := ToggleTaskStatus(ToggleTaskStatus(tasks, id, now), id, later);
            && |r| == |tasks|
            && forall i :: 0 <= i < |tasks| ==> r[i] == if tasks[i].id == id then tasks[i].(updatedAt := later) else tasks[i]
  {
    var once := ToggleTaskStatus(tasks, id, now);
    var r := ToggleTaskStatus(once, id, later);
    forall i | 0 <= i < |tasks|
      ensures r[i] == if tasks[i].id == id then tasks[i].(updatedAt := later) else tasks[i]
    {
      if tasks[i].id == id {
        assert r[i].status == Flipped(Flipped(tasks[i].status));
      }
    }
  }

  /** The filter callback `task => task.id !== id`. */
  function IdIsNot(id: string): Task -> bool {
    (t: Task) => t.id != id
  }

  /** `deleteTask`: the tasks with another id, in their order. */
  function DeleteTask(tasks: seq<Task>, id: string): (r: seq<Task>)
    ensures forall t :: t in r <==> t in tasks && t.id != id
    ensures forall t :: multiset(r)[t] == if t.id != id then multiset(tasks)[t] else 0
    ensures IsSubsequence(r, tasks)
  {
    FilterMembers(IdIsNot(id), tasks);
    FilterIsSubsequence(IdIsNot(id), tasks);
    Filter(IdIsNot(id), tasks)
  }

  /** Deleting a task just created restores the list, provided the fresh id
      was not already taken. */
  lemma DeleteUndoesCreate(tasks: seq<Task>, form: TaskForm, freshId: string, now: string)
    requires Trim(form.title) != ""
    requires forall i :: 0 <= i < |tasks| ==> tasks[i].id != freshId
    ensures DeleteTask(HandleSubmit(tasks, form, None, freshId, now), freshId) == tasks
  {
    var t := Submitted(form, None, freshId, now);
    assert HandleSubmit(tasks, form, None, freshId, now) == tasks + [t];
    FilterSnoc(IdIsNot(freshId), tasks, t);
    FilterKeepsAll(IdIsNot(freshId), tasks);
  }

  /** Deleting the same id twice is deleting it once. */
  lemma DeleteIdempotent(tasks: seq<Task>, id: string)
    ensures DeleteTask(DeleteTask(tasks, id), id) == DeleteTask(tasks, id)
  {
    var r := DeleteTask(tasks, id);
    assert forall i :: 0 <= i < |r| ==> r[i] in r;
    FilterKeepsAll(IdIsNot(id), r);
  }

  /** The status filter's callback `task => task.status === filter`. */
  function HasStatus(filter: string): Task -> bool {
    (t: Task) => t.status == filter
  }

  /** The search callback: the query, lower-cased, occurs in the lower-cased
      title or description. */
  function MatchesQuery(query: string): Task -> bool {
    (t: Task) => Includes(ToLower(t.title), ToLower(query)) || Includes(ToLower(t.description), ToLower(query))
  }

  /** Which tasks the list shows, stated in one go: the status filter is
      "all" or names the task's status, and the query is empty or matches. */
  function Shown(filter: string, query: string): Task -> bool {
    (t: Task) => (filter == All || t.status == filter) && (query == "" || MatchesQuery(query)(t))
  }

  /** The sort key. */
  function ByRank(): Task -> int {
    (t: Task) => Rank(t.priority)
  }

  /** `getFilteredTasks`: filter by status unless the filter is "all", then
      by the query when there is one, then sort by priority. */
  function GetFilteredTasks(tasks: seq<Task>, filter: string, query: string): (r: seq<Task>)
    ensures SortedBy(ByRank(), r)
  {
    var byStatus := if filter != All then Filter(HasStatus(filter), tasks) else tasks;
    var bySearch := if query != "" then Filter(MatchesQuery(query), byStatus) else byStatus;
    Sort(ByRank(), bySearch)
  }

  /** The two filters in a row select exactly the tasks `Shown` describes, so
      the list is those tasks sorted by priority. */
  lemma FilteredIsSortedSelection(tasks: seq<Task>, filter: string, query: string)
    ensures GetFilteredTasks(tasks, filter, query) == Sort(ByRank(), Filter(Shown(filter, query), tasks))
  {
    var shown := Shown(filter, query);
    var byStatus := if filter != All then Filter(HasStatus(filter), tasks) else tasks;
    var bySearch := if query != "" then Filter(MatchesQuery(query), byStatus) else byStatus;
    if filter != All && query != "" {
      FilterFilter(HasStatus(filter), MatchesQuery(query), tasks);
      FilterAgree(And(HasStatus(filter), MatchesQuery(query)), shown, tasks);
    } else if filter != All {
      FilterAgree(HasStatus(filter), shown, tasks);
    } else if query != "" {
      FilterAgree(MatchesQuery(query), shown, tasks);
    } else {
      FilterKeepsAll(shown, tasks);
    }
    assert bySearch == Filter(shown, tasks);
  }

  /** The list shows exactly the matching tasks, each as often as it occurs,
      urgent first and low last, and tasks of equal priority in the order
      they have in the state. */
  lemma FilteredTasksExactly(tasks: seq<Task>, filter: string, query: string)
    ensures var r := GetFilteredTasks(tasks, filter, query);
            && multiset(r) == multiset(Filter(Shown(filter, query), tasks))
            && (forall t :: t in r <==> t in tasks && Shown(filter, query)(t))
            && forall k :: Filter(RankIs(ByRank(), k), r) == Filter(RankIs(ByRank(), k), Filter(Shown(filter, query), tasks))
  {
    var selected := Filter(Shown(filter, query), tasks);
    var r := GetFilteredTasks(tasks, filter, query);
    FilteredIsSortedSelection(tasks, filter, query);
    FilterMembers(Shown(filter, query), tasks);
    forall t
      ensures t in r <==> t in selected
    {
      assert t in r <==> t in multiset(r);
      assert t in selected <==> t in multiset(selected);
    }
    forall k
      ensures Filter(RankIs(ByRank(), k), r) == Filter(RankIs(ByRank(), k), selected)
    {
      SortIsStable(ByRank(), selected, k);
    }
  }

  /** With the filter on "all" and no query every task is listed. */
  lemma NoFilterListsAll(tasks: seq<Task>)
    ensures multiset(GetFilteredTasks(tasks, All, "")) == multiset(tasks)
  {
  }

  /** Search does not care about letter case in the query. */
  lemma SearchIgnoresCase(tasks: seq<Task>, filter: string, query: string)
    ensures GetFilteredTasks(tasks, filter, query) == GetFilteredTasks(tasks, filter, ToLower(query))
  {
    ToLowerIdempotent(query);
    var byStatus := if filter != All then Filter(HasStatus(filter), tasks) else tasks;
    if query != "" {
      forall i | 0 <= i < |byStatus|
        ensures MatchesQuery(query)(byStatus[i]) == MatchesQuery(ToLower(query))(byStatus[i])
      {
      }
      FilterAgree(MatchesQuery(query), MatchesQuery(ToLower(query)), byStatus);
    }
  }

  /** A query only ever removes tasks from the list. */
  lemma SearchNarrows(tasks: seq<Task>, filter: string, query: string)
    ensures multiset(GetFilteredTasks(tasks, filter, query)) <= multiset(GetFilteredTasks(tasks, filter, ""))
  {
    var byStatus := if filter != All then Filter(HasStatus(filter), tasks) else tasks;
    assert multiset(Filter(MatchesQuery(query), byStatus)) <= multiset(byStatus);
  }

  /** The four counters over the dashboard. */
  datatype TaskStats = TaskStats(total: nat, completed: nat, pending: nat, urgent: nat)

  /** The urgent counter's callback: urgent and not completed. */
  function OpenUrgent(): Task -> bool {
    (t: Task) => t.priority == Urgent && t.status != Completed
  }

  /** `getTaskStats`. Completed and pending tasks are disjoint, so together
      they never exceed the total, and reach it exactly when no task has a
      third status; open urgent tasks fit beside the completed ones. */
  function GetTaskStats(tasks: seq<Task>): (s: TaskStats)
    ensures s.total == |tasks|
    ensures s.completed + s.pending <= s.total
    ensures s.completed + s.pending == s.total <==>
              forall i :: 0 <= i < |tasks| ==> tasks[i].status == Completed || tasks[i].status == Pending
    ensures s.urgent + s.completed <= s.total
  {
    var isC, isP := HasStatus(Completed), HasStatus(Pending);
    CountDisjoint(isC, isP, tasks);
    CountAll(Or(isC, isP), tasks);
    CountDisjoint(OpenUrgent(), isC, tasks);
    TaskStats(|tasks|, Count(isC, tasks), Count(isP, tasks), Count(OpenUrgent(), tasks))
  }

  /** Creating a task adds one to the total and one to the pending count,
      leaves the completed count alone, and adds one to the urgent count
      exactly when the new task is urgent. */
  lemma CreateBumpsStats(tasks: seq<Task>, form: TaskForm, freshId: string, now: string)
    requires Trim(form.title) != ""
    ensures var before := GetTaskStats(tasks);
            var after := GetTaskStats(HandleSubmit(tasks, form, None, freshId, now));
            && after.total == before.total + 1
            && after.completed == before.completed
            && after.pending == before.pending + 1
            && after.urgent == before.urgent + (if form.priority == Urgent then 1 else 0)
  {
    var t := Submitted(form, None, freshId, now);
    assert HandleSubmit(tasks, form, None, freshId, now) == tasks + [t];
    FilterSnoc(HasStatus(Completed), tasks, t);
    FilterSnoc(HasStatus(Pending), tasks, t);
    FilterSnoc(OpenUrgent(), tasks, t);
  }
}

=== FILE: options.dfy ===
/** The JavaScript values `null`/`undefined` versus a present value. */
module Options {

  datatype Option<T> = None | Some(value: T) {

    /** The present value, or `default` when absent (the `x ?? default` idiom). */
    function GetOr(default: T): T {
      match this
      case Some(v) => v
      case None => default
    }
  }
}

=== FILE: pages.dfy ===
/** The projects list page (`src/pages/Projects.jsx`): the projects that match
    the search term and the status filter, in store order. */
module ProjectsPage {
  import opened Seqs
  import opened Text
  import opened ProjectsSlice

  /** The status filter that lets every project through. */
  const AllStatuses: string := "all"

  /** `matchesSearch`: the lower-cased term occurs in the lower-cased title or
      description. There is no guard for an empty term: the empty string
      occurs in every string. */
  function MatchesSearch(term: string): Project -> bool {
    (p: Project) => Includes(ToLower(p.title), ToLower(term)) || Includes(ToLower(p.description), ToLower(term))
  }

  /** `matchesStatus`. */
  function MatchesStatus(status: string): Project -> bool {
    (p: Project) => status == AllStatuses || p.status == status
  }

  /** The `filter` callback: both conditions. */
  function Visible(term: string, status: string): Project -> bool {
    (p: Project) => MatchesSearch(term)(p) && MatchesStatus(status)(p)
  }

  /** `filteredProjects`: exactly the visible projects, in store order. */
  function FilteredProjects(projects: seq<Project>, term: string, status: string): (r: seq<Project>)
    ensures forall p :: p in r <==> p in projects && MatchesSearch(term)(p) && MatchesStatus(status)(p)
    ensures forall p :: multiset(r)[p] == if MatchesSearch(term)(p) && MatchesStatus(status)(p) then multiset(projects)[p] else 0
    ensures IsSubsequence(r, projects)
  {
    FilterMembers(Visible(term, status), projects);
    FilterIsSubsequence(Visible(term, status), projects);
    Filter(Visible(term, status), projects)
  }

  /** An empty search term filters by status alone; with "all" as well,
      every project is listed. */
  lemma EmptyTermFiltersByStatusOnly(projects: seq<Project>, status: string)
    ensures FilteredProjects(projects, "", status) == Filter(MatchesStatus(status), projects)
    ensures FilteredProjects(projects, "", AllStatuses) == projects
  {
    forall p: Project
      ensures MatchesSearch("")(p)
    {
      IncludesEmpty(ToLower(p.title));
    }
    FilterAgree(Visible("", status), MatchesStatus(status), projects);
    FilterKeepsAll(Visible("", AllStatuses), projects);
  }

  /** Choosing a status lists a subsequence of what "all" lists. */
  lemma StatusNarrows(projects: seq<Project>, term: string, status: string)
    ensures IsSubsequence(FilteredProjects(projects, term, status), FilteredProjects(projects, term, AllStatuses))
  {
    forall p: Project | Visible(term, status)(p)
      ensures Visible(term, AllStatuses)(p)
    {
      assert MatchesSearch(term)(p);
    }
    FilterStrongerIsSubsequence(Visible(term, AllStatuses), Visible(term, status), projects);
  }

  /** The search does not care about letter case in the term. */
  lemma SearchIgnoresCase(projects: seq<Project>, term: string, status: string)
    ensures FilteredProjects(projects, term, status) == FilteredProjects(projects, ToLower(term), status)
  {
    ToLowerIdempotent(term);
    forall i | 0 <= i < |projects|
      ensures Visible(term, status)(projects[i]) == Visible(ToLower(term), status)(projects[i])
    {
      assert MatchesSearch(term)(projects[i]) == MatchesSearch(ToLower(term))(projects[i]);
    }
    FilterAgree(Visible(term, status), Visible(ToLower(term), status), projects);
  }

  /** Deleting a project and then filtering lists what filtering and then
      dropping that project lists. */
  lemma DeleteThenFilter(projects: seq<Project>, id: string, term: string, status: string)
    ensures FilteredProjects(DeleteProject(projects, id), term, status)
         == Filter(ProjectNotId(id), FilteredProjects(projects, term, status))
  {
    var v, d := Visible(term, status), ProjectNotId(id);
    assert DeleteProject(projects, id) == Filter(d, projects);
    FilterFilter(d, v, projects);
    FilterFilter(v, d, projects);
    FilterAgree(And(d, v), And(v, d), projects);
  }
}

/** The dashboard home page (`src/pages/Home.jsx`): four counters over the
    whole store and the three most recent projects. */
module HomePage {
  import opened Options
  import opened Seqs
  import opened Tally
  import opened TasksSlice
  import opened ProjectsSlice
  import ProjectStats
  import ProjectsPage

  const Active: string := "active"

  /** The four counters. */
  datatype HomeStats = HomeStats(totalProjects: nat, activeProjects: nat, completedTasks: nat, pendingTasks: nat)

  function HasProjectStatus(status: string): Project -> bool {
    (p: Project) => p.status == status
  }

  /** The pending callback: to do or in progress. */
  function IsPending(): Task -> bool {
    Or(KeyIs(ProjectStats.StatusOf(), Todo), KeyIs(ProjectStats.StatusOf(), InProgress))
  }

  /** `stats`. Completed and pending tasks are disjoint, so together they never
      exceed the number of tasks, and reach it exactly when every task has one
      of the three statuses. */
  function ComputeHomeStats(projects: seq<Project>, tasks: seq<Task>): (s: HomeStats)
    ensures s.totalProjects == |projects|
    ensures s.activeProjects <= s.totalProjects
    ensures s.activeProjects == |ProjectsPage.FilteredProjects(projects, "", Active)|
    ensures s.completedTasks + s.pendingTasks <= |tasks|
    ensures s.completedTasks + s.pendingTasks == |tasks| <==> forall i :: 0 <= i < |tasks| ==> ProjectStats.KnownStatus(tasks[i])
  {
    var isC := KeyIs(ProjectStats.StatusOf(), Completed);
    CountDisjoint(isC, IsPending(), tasks);
    forall i | 0 <= i < |tasks|
      ensures Or(isC, IsPending())(tasks[i]) == ProjectStats.KnownStatus(tasks[i])
    {
    }
    CountAll(Or(isC, IsPending()), tasks);
    SameCount(Or(isC, IsPending()), ProjectStats.KnownStatus, tasks);
    ProjectsPage.EmptyTermFiltersByStatusOnly(projects, Active);
    SameCount(HasProjectStatus(Active), ProjectsPage.MatchesStatus(Active), projects);
    HomeStats(|projects|, Count(HasProjectStatus(Active), projects), Count(isC, tasks), Count(IsPending(), tasks))
  }

  /** The home page and a project's overview count alike: over the same tasks
      the completed figures agree and pending is to-do plus in-progress. */
  lemma HomeAgreesWithOverview(projects: seq<Project>, tasks: seq<Task>, dateOf: string -> Option<int>, now: int)
    ensures var h := ComputeHomeStats(projects, tasks);
            var o := ProjectStats.ComputeStats(tasks, dateOf, now);
            h.completedTasks == o.completed && h.pendingTasks == o.todo + o.inProgress
  {
    var isT, isP := KeyIs(ProjectStats.StatusOf(), Todo), KeyIs(ProjectStats.StatusOf(), InProgress);
    CountDisjoint(isT, isP, tasks);
  }

  /** The recent-projects panel. */
  datatype Recent = NoProjectsYet | RecentProjects(shown: seq<Project>)

  /** `projects.slice(0, 3)`, or the empty-state message when there are no
      projects: the first three in store order, or all when fewer. */
  function RecentPanel(projects: seq<Project>): (v: Recent)
    ensures v.NoProjectsYet? <==> |projects| == 0
    ensures v.RecentProjects? ==>
              && 0 < |v.shown| <= 3
              && |v.shown| == (if |projects| < 3 then |projects| else 3)
              && v.shown == projects[..|v.shown|]
  {
    if |projects| == 0 then NoProjectsYet
    else RecentProjects(projects[..if |projects| < 3 then |projects| else 3])
  }

  /** While there are fewer than three projects, a newly added one shows up
      in the panel. */
  lemma NewProjectShowsWhileFew(projects: seq<Project>, payload: Project, freshId: string, now: string)
    requires |projects| < 3
    ensures var r := AddProject(projects, payload, freshId, now);
            RecentPanel(r) == RecentProjects(r) && r[|projects|] in RecentPanel(r).shown
  {
  }
}

/** The page of one project (`src/pages/ProjectDetail.jsx`): the project found
    by id, its tasks, and three tabs that all read those tasks. */
module ProjectDetailPage {
  import opened Options
  import opened Seqs
  import opened TasksSlice
  import opened ProjectsSlice
  import ProjectStats
  import ProjectProgress
  import TaskHierarchy

  /** The filter callback `t => t.projectId === id`. */
  function InProject(id: string): Task -> bool {
    (t: Task) => t.projectId == id
  }

  /** `projectTasks`: the tasks of the project, in store order. */
  function ProjectTasks(tasks: seq<Task>, id: string): (r: seq<Task>)
    ensures forall t :: t in r <==> t in tasks && t.projectId == id
    ensures forall t :: multiset(r)[t] == if t.projectId == id then multiset(tasks)[t] else 0
    ensures IsSubsequence(r, tasks)
  {
    FilterMembers(InProject(id), tasks);
    FilterIsSubsequence(InProject(id), tasks);
    Filter(InProject(id), tasks)
  }

  /** What the page shows before choosing a tab. */
  datatype Page = NotFound | Found(project: Project, projectTasks: seq<Task>)

  /** `projects.find(p => p.id === id)`: the first project with the id, or
      the "Project not found" page. */
  function ShowPage(projects: seq<Project>, tasks: seq<Task>, id: string): (pg: Page)
    ensures pg.NotFound? <==> forall i :: 0 <= i < |projects| ==> projects[i].id != id
    ensures pg.Found? ==> exists i :: IsFirstProject(projects, i, id) && pg.project == projects[i]
    ensures pg.Found? ==> pg.projectTasks == ProjectTasks(tasks, id)
  {
    match FindIndex(ProjectHasId(id), projects)
    case None => NotFound
    case Some(i) =>
      assert IsFirstProject(projects, i, id);
      Found(projects[i], ProjectTasks(tasks, id))
  }

  datatype Tab = Overview | Tasks | Progress

  /** The body of the chosen tab. */
  datatype TabView =
    | OverviewView(stats: ProjectStats.Stats)
    | TasksView(hierarchy: TaskHierarchy.View)
    | ProgressView(statusData: seq<nat>, priorityData: seq<nat>)

  /** Each tab renders its component over the project's tasks. */
  function RenderTab(projectTasks: seq<Task>, tab: Tab, dateOf: string -> Option<int>, now: int): TabView {
    match tab
    case Overview => OverviewView(ProjectStats.ComputeStats(projectTasks, dateOf, now))
    case Tasks => TasksView(TaskHierarchy.Render(projectTasks))
    case Progress => ProgressView(ProjectProgress.StatusVector(projectTasks), ProjectProgress.PriorityVector(projectTasks))
  }

  /** The tasks tab only ever shows tasks of this project, even when a
      subtask's parent belongs to another one. */
  lemma TreeIsProjectScoped(tasks: seq<Task>, id: string, t: Task, level: nat)
    requires TaskHierarchy.Render(ProjectTasks(tasks, id)).Tree?
    requires TaskHierarchy.Row(t, level) in TaskHierarchy.Render(ProjectTasks(tasks, id)).rows
    ensures t in tasks && t.projectId == id
  {
    RowIsListed(ProjectTasks(tasks, id), t, level);
    SelectedIsInProject(tasks, id, t);
  }

  /** Every row of the tree shows a task of the list it was drawn from. */
  lemma RowIsListed(tasks: seq<Task>, t: Task, level: nat)
    requires TaskHierarchy.Render(tasks).Tree?
    requires TaskHierarchy.Row(t, level) in TaskHierarchy.Render(tasks).rows
    ensures t in tasks
  {
    var rows := TaskHierarchy.Rows(tasks);
    assert TaskHierarchy.Row(t, level) in rows;
    TaskHierarchy.ShownExactly(tasks, t, level);
    if level == 0 {
      assert TaskHierarchy.Row(t, 0) in rows;
    } else if level == 1 {
      assert TaskHierarchy.Row(t, 1) in rows;
    }
  }

  /** A selected task is a task of the project. */
  lemma SelectedIsInProject(tasks: seq<Task>, id: string, t: Task)
    requires t in ProjectTasks(tasks, id)
    ensures t in tasks && t.projectId == id
  {
  }

  /** The overview counts exactly the project's tasks, and the progress tab
      plots the same status counts the overview shows. */
  lemma TabsAgree(projects: seq<Project>, tasks: seq<Task>, id: string, dateOf: string -> Option<int>, now: int)
    requires ShowPage(projects, tasks, id).Found?
    ensures var pt := ShowPage(projects, tasks, id).projectTasks;
            var s := RenderTab(pt, Overview, dateOf, now).stats;
            && s.total == Count(InProject(id), tasks)
            && RenderTab(pt, Progress, dateOf, now).statusData == [s.completed, s.inProgress, s.todo]
  {
    var pt := ProjectTasks(tasks, id);
    ProjectProgress.ChartsAgreeWithStats(pt, dateOf, now);
  }

  /** After the project is deleted its page is the not-found page. */
  lemma DeletedProjectNotFound(projects: seq<Project>, tasks: seq<Task>, id: string)
    ensures ShowPage(DeleteProject(projects, id), tasks, id).NotFound?
  {
  }
}

=== FILE: project_form.dfy ===
/** The create/edit project dialog (`src/components/ProjectForm.jsx`): the
    form's initial values, validation, the team-member parse on submit, and
    the field-change handler. Dates are read through `dateOf` (`None` for an
    invalid date); the current day is the parameter `today`. */
module ProjectForm {
  import opened Options
  import opened Seqs
  import opened Text
  import opened ProjectsSlice

  /** The form's inputs, every one a string as typed. */
  datatype FormData = FormData(
    title: string,
    description: string,
    status: string,
    priority: string,
    startDate: string,
    endDate: string,
    color: string,
    teamMembers: string)

  /** The `name` of an input. */
  datatype Field = Title | Description | Status | Priority | StartDate | EndDate | Color | TeamMembers

  /** `s || fallback` for a string. */
  function OrElse(s: string, fallback: string): string {
    if s != "" then s else fallback
  }

  const MemberSeparator := ", "

  /** The initial values: the edited project's fields, with defaults for a
      new project or for empty fields. */
  function InitForm(project: Option<Project>, today: string): (f: FormData)
    ensures project.None? ==> f == FormData("", "", "active", "medium", today, "", "#6366f1", "")
    ensures project.Some? ==>
              && f.title == project.value.title && f.description == project.value.description
              && f.endDate == project.value.endDate
              && f.teamMembers == Join(project.value.teamMembers, MemberSeparator)
    ensures project.Some? ==>
              && (project.value.status != "" ==> f.status == project.value.status)
              && (project.value.priority != "" ==> f.priority == project.value.priority)
              && (project.value.startDate != "" ==> f.startDate == project.value.startDate)
              && (project.value.color != "" ==> f.color == project.value.color)
    ensures project.Some? ==>
              && (project.value.status == "" ==> f.status == "active")
              && (project.value.priority == "" ==> f.priority == "medium")
              && (project.value.startDate == "" ==> f.startDate == today)
              && (project.value.color == "" ==> f.color == "#6366f1")
    ensures today != "" ==> f.status != "" && f.priority != "" && f.startDate != "" && f.color != ""
  {
    match project
    case None => FormData("", "", "active", "medium", today, "", "#6366f1", "")
    case Some(p) =>
      FormData(p.title, p.description, OrElse(p.status, "active"), OrElse(p.priority, "medium"),
               OrElse(p.startDate, today), p.endDate, OrElse(p.color, "#6366f1"),
               Join(p.teamMembers, MemberSeparator))
  }

  const TitleRequired := "Project title is required"
  const DescriptionRequired := "Project description is required"
  const EndDateRequired := "End date is required"
  const EndDateOrder := "End date must be after start date"

  /** `new Date(a) <= new Date(b)`: false when either date is invalid. */
  predicate NotAfter(a: Option<int>, b: Option<int>) {
    a.Some? && b.Some? && a.value <= b.value
  }

  datatype Validation = Validation(errors: map<Field, string>, valid: bool)

  /** `validateForm`: the error for each failing rule, and whether there are
      none. The end date carries at most one message. */
  function ValidateForm(form: FormData, dateOf: string -> Option<int>): (v: Validation)
    ensures v.valid <==> |v.errors| == 0
    ensures v.errors.Keys <= {Title, Description, EndDate}
    ensures Title in v.errors <==> AllWhitespace(form.title)
    ensures Description in v.errors <==> AllWhitespace(form.description)
    ensures form.endDate == "" ==> EndDate in v.errors && v.errors[EndDate] == EndDateRequired
    ensures form.endDate != "" ==>
              (EndDate in v.errors <==> NotAfter(dateOf(form.endDate), dateOf(form.startDate)))
    ensures form.endDate != "" && EndDate in v.errors ==> v.errors[EndDate] == EndDateOrder
    ensures Title in v.errors ==> v.errors[Title] == TitleRequired
    ensures Description in v.errors ==> v.errors[Description] == DescriptionRequired
  {
    var e0: map<Field, string> := map[];
    var e1 := if Trim(form.title) == "" then e0[Title := TitleRequired] else e0;
    var e2 := if Trim(form.description) == "" then e1[Description := DescriptionRequired] else e1;
    var e3 :=
      if form.endDate == "" then e2[EndDate := EndDateRequired]
      else if NotAfter(dateOf(form.endDate), dateOf(form.startDate)) then e2[EndDate := EndDateOrder]
      else e2;
    Validation(e3, |e3| == 0)
  }

  /** A form passes exactly when title and description hold more than white
      space, the end date is filled in, and it is not on or before the start
      date (as far as both dates can be read). */
  lemma ValidIff(form: FormData, dateOf: string -> Option<int>)
    ensures ValidateForm(form, dateOf).valid <==>
              && Trim(form.title) != ""
              && Trim(form.description) != ""
              && form.endDate != ""
              && !NotAfter(dateOf(form.endDate), dateOf(form.startDate))
  {
    var v := ValidateForm(form, dateOf);
    if !v.valid {
      assert |v.errors| != 0;
      var k :| k in v.errors;
    }
  }

  /** An end date equal to the start date is rejected with the ordering message. */
  lemma EqualDatesRejected(form: FormData, dateOf: string -> Option<int>)
    requires form.endDate != "" && dateOf(form.endDate).Some? && dateOf(form.endDate) == dateOf(form.startDate)
    ensures !ValidateForm(form, dateOf).valid
    ensures ValidateForm(form, dateOf).errors[EndDate] == EndDateOrder
  {
    ValidIff(form, dateOf);
  }

  // ---------------------------------------------------------------------------
  // The team-member list

  function TrimAll(parts: seq<string>): (r: seq<string>)
    ensures |r| == |parts|
    ensures forall i :: 0 <= i < |r| ==> r[i] == Trim(parts[i])
  {
    seq(|parts|, i requires 0 <= i < |parts| => Trim(parts[i]))
  }

  function NonEmpty(): string -> bool {
    (m: string) => |m| > 0
  }

  /** A member name as the parse produces it. */
  predicate CleanMember(m: string) {
    m != "" && IsTrimmed(m) && ',' !in m
  }

  /** `split(',').map(m => m.trim()).filter(m => m.length > 0)`: the trimmed,
      non-empty pieces between commas, in order, duplicates kept. */
  function ParseTeamMembers(s: string): (r: seq<string>)
    ensures forall i :: 0 <= i < |r| ==> CleanMember(r[i])
    ensures |r| <= multiset(s)[','] + 1
    ensures IsSubsequence(r, TrimAll(Split(s, ',')))
    ensures forall m :: multiset(r)[m] == if m == "" then 0 else multiset(TrimAll(Split(s, ',')))[m]
  {
    var pieces := Split(s, ',');
    var r := Filter(NonEmpty(), TrimAll(pieces));
    SplitCount(s, ',');
    FilterIsSubsequence(NonEmpty(), TrimAll(pieces));
    KeptPiecesClean(pieces, r);
    r
  }

  /** Trimming comma-free pieces and dropping the empty ones leaves clean names. */
  lemma KeptPiecesClean(pieces: seq<string>, r: seq<string>)
    requires forall i :: 0 <= i < |pieces| ==> ',' !in pieces[i]
    requires r == Filter(NonEmpty(), TrimAll(pieces))
    ensures forall i :: 0 <= i < |r| ==> CleanMember(r[i])
  {
    var trimmed := TrimAll(pieces);
    forall i | 0 <= i < |r|
      ensures CleanMember(r[i])
    {
      assert r[i] in multiset(r);
      assert r[i] in multiset(trimmed);
      var j :| 0 <= j < |trimmed| && trimmed[j] == r[i];
      TrimKeepsCharacters(pieces[j]);
    }
  }

  /** The pieces `join(', ')` leaves between commas: the first member, then
      each further member behind one space. */
  function Spaced(ms: seq<string>): (r: seq<string>)
    ensures |r| == |ms|
  {
    seq(|ms|, i requires 0 <= i < |ms| => if i == 0 then ms[0] else " " + ms[i])
  }

  lemma {:induction false} JoinSpaced(ms: seq<string>)
    ensures Join(ms, MemberSeparator) == Join(Spaced(ms), [','])
    decreases |ms|
  {
    if |ms| >= 2 {
      var tail := ms[1..];
      JoinSpaced(tail);
      var p, q := Spaced(ms), Spaced(tail);
      assert p[1..] == [[' '] + q[0]] + q[1..];
      JoinConsHead(' ', q[0], q[1..], [',']);
      assert q == [q[0]] + q[1..];
      assert Join(ms, MemberSeparator) == ms[0] + MemberSeparator + Join(tail, MemberSeparator);
      assert Join(p, [',']) == p[0] + [','] + Join(p[1..], [',']);
    } else if |ms| == 1 {
      assert Spaced(ms) == ms;
    }
  }

  /** Trimming the spaced pieces gives back clean members. */
  lemma TrimSpaced(ms: seq<string>)
    requires forall i :: 0 <= i < |ms| ==> CleanMember(ms[i])
    ensures TrimAll(Spaced(ms)) == ms
  {
    var t := TrimAll(Spaced(ms));
    forall i | 0 <= i < |ms|
      ensures t[i] == ms[i]
    {
      TrimSpacedAt(ms, i);
    }
  }

  lemma TrimSpacedAt(ms: seq<string>, i: nat)
    requires i < |ms| && IsTrimmed(ms[i])
    ensures Trim(Spaced(ms)[i]) == ms[i]
  {
    var w := if i == 0 then "" else " ";
    assert Spaced(ms)[i] == w + ms[i] + "";
    TrimPadded(w, ms[i], "");
  }

  /** An empty team field parses to no members. */
  lemma ParseEmpty()
    ensures ParseTeamMembers("") == []
  {
    assert Split("", ',') == [""];
    assert TrimAll([""]) == [""];
    FilterSingle(NonEmpty(), "");
    assert [""] == [] + [""];
    FilterAppend(NonEmpty(), [], [""]);
  }

  /** The spaced pieces of clean members hold no comma. */
  lemma SpacedCommaFree(ms: seq<string>)
    requires forall i :: 0 <= i < |ms| ==> CleanMember(ms[i])
    ensures forall i :: 0 <= i < |Spaced(ms)| ==> ',' !in Spaced(ms)[i]
  {
    var sp := Spaced(ms);
    forall i | 0 <= i < |sp|
      ensures ',' !in sp[i]
    {
      if i > 0 {
        assert sp[i] == [' '] + ms[i];
      }
    }
  }

  /** Joining clean members with `', '`, as the edit form does, and parsing
      the text again gives back the same list. */
  lemma ParseJoinRoundTrip(ms: seq<string>)
    requires forall i :: 0 <= i < |ms| ==> CleanMember(ms[i])
    ensures ParseTeamMembers(Join(ms, MemberSeparator)) == ms
  {
    if |ms| == 0 {
      ParseEmpty();
    } else {
      var sp := Spaced(ms);
      JoinSpaced(ms);
      SpacedCommaFree(ms);
      SplitJoin(sp, ',');
      assert Split(Join(ms, MemberSeparator), ',') == sp;
      TrimSpaced(ms);
      FilterKeepsAll(NonEmpty(), ms);
    }
  }

  // ---------------------------------------------------------------------------
  // Submitting and editing

  /** The project a form submits; the id, progress and creation time are
      placeholders the store overwrites. */
  function Submitted(form: FormData): Project {
    Project("", form.title, form.description, form.status, form.priority, form.startDate,
            form.endDate, 0, form.color, ParseTeamMembers(form.teamMembers), "")
  }

  /** `{ id: project.id, ...projectData }`: every form field, progress and
      creation time left out. */
  function SubmittedPatch(id: string, form: FormData): ProjectPatch {
    ProjectPatch(id, Some(form.title), Some(form.description), Some(form.status), Some(form.priority),
                 Some(form.startDate), Some(form.endDate), None, Some(form.color),
                 Some(ParseTeamMembers(form.teamMembers)), None)
  }

  /** The outcome of `handleSubmit`: the errors of an invalid form, with
      nothing dispatched and the dialog left open, or the new project list
      after the dispatch, with the dialog closed. */
  datatype Submission = Rejected(errors: map<Field, string>) | Saved(projects: seq<Project>)

  function HandleSubmit(form: FormData, editing: Option<Project>, projects: seq<Project>,
                        dateOf: string -> Option<int>, freshId: string, now: string): (s: Submission)
    ensures s.Rejected? <==> !ValidateForm(form, dateOf).valid
    ensures s.Rejected? ==> |s.errors| > 0
    ensures s.Saved? && editing.Some? ==> |s.projects| == |projects|
    ensures s.Saved? && editing.None? ==> |s.projects| == |projects| + 1 && s.projects[..|projects|] == projects
  {
    var v := ValidateForm(form, dateOf);
    if !v.valid then Rejected(v.errors)
    else
      match editing
      case Some(p) => Saved(UpdateProject(projects, SubmittedPatch(p.id, form)))
      case None => Saved(AddProject(projects, Submitted(form), freshId, now))
  }

  /** A valid edit rewrites the edited project in place under its own id,
      with every form field and the parsed members, keeping progress and
      creation time; every other project is unchanged. */
  lemma SubmitEdit(form: FormData, p: Project, projects: seq<Project>,
                   dateOf: string -> Option<int>, freshId: string, now: string, i: nat)
    requires ValidateForm(form, dateOf).valid && IsFirstProject(projects, i, p.id)
    ensures var s := HandleSubmit(form, Some(p), projects, dateOf, freshId, now);
            && s.Saved?
            && s.projects == projects[i := projects[i].(
                 title := form.title, description := form.description, status := form.status,
                 priority := form.priority, startDate := form.startDate, endDate := form.endDate,
                 color := form.color, teamMembers := ParseTeamMembers(form.teamMembers))]
  {
    var patch := SubmittedPatch(p.id, form);
    var r := UpdateProject(projects, patch);
    var edited := projects[i].(
      title := form.title, description := form.description, status := form.status,
      priority := form.priority, startDate := form.startDate, endDate := form.endDate,
      color := form.color, teamMembers := ParseTeamMembers(form.teamMembers));
    assert HandleSubmit(form, Some(p), projects, dateOf, freshId, now) == Saved(r);
    assert r[i] == MergeProject(projects[i], patch) == edited;
    forall j | 0 <= j < |r| && j != i
      ensures r[j] == projects[j]
    {
      assert !IsFirstProject(projects, j, patch.id);
    }
    assert r == projects[i := edited];
  }

  /** A valid new project lands after the old ones under the fresh id, with
      every form field, the parsed members, progress 0 and the new creation
      time. */
  lemma SubmitCreate(form: FormData, projects: seq<Project>,
                     dateOf: string -> Option<int>, freshId: string, now: string)
    requires ValidateForm(form, dateOf).valid
    ensures var s := HandleSubmit(form, None, projects, dateOf, freshId, now);
            && s.Saved?
            && s.projects == projects + [Submitted(form).(id := freshId, createdAt := now)]
  {
  }

  /** Opening an existing project and saving without touching the team field
      stores the same members, as long as they are clean names. */
  lemma EditKeepsTeam(p: Project, today: string)
    requires forall i :: 0 <= i < |p.teamMembers| ==> CleanMember(p.teamMembers[i])
    ensures ParseTeamMembers(InitForm(Some(p), today).teamMembers) == p.teamMembers
  {
    ParseJoinRoundTrip(p.teamMembers);
  }

  /** Reads one input of the form. */
  function Get(form: FormData, f: Field): string {
    match f
    case Title => form.title
    case Description => form.description
    case Status => form.status
    case Priority => form.priority
    case StartDate => form.startDate
    case EndDate => form.endDate
    case Color => form.color
    case TeamMembers => form.teamMembers
  }

  function Set(form: FormData, f: Field, value: string): FormData {
    match f
    case Title => form.(title := value)
    case Description => form.(description := value)
    case Status => form.(status := value)
    case Priority => form.(priority := value)
    case StartDate => form.(startDate := value)
    case EndDate => form.(endDate := value)
    case Color => form.(color := value)
    case TeamMembers => form.(teamMembers := value)
  }

  datatype FormState = FormState(data: FormData, errors: map<Field, string>)

  /** `handleChange`: store the typed value, and blank the field's error if
      it had one. */
  function HandleChange(state: FormState, name: Field, value: string): (r: FormState)
    ensures forall f :: Get(r.data, f) == if f == name then value else Get(state.data, f)
    ensures r.errors.Keys == state.errors.Keys
    ensures forall f :: f in r.errors && f != name ==> r.errors[f] == state.errors[f]
    ensures name in r.errors ==> r.errors[name] == ""
  {
    var data := Set(state.data, name, value);
    var errors :=
      if name in state.errors && state.errors[name] != "" then state.errors[name := ""]
      else state.errors;
    FormState(data, errors)
  }
}

=== FILE: project_progress.dfy ===
/** The charts of a project's progress tab (`src/components/ProjectProgress.jsx`):
    histograms of task status and task priority, and the fixed-order data
    vectors the two charts plot, with a missing bucket read as 0. */
module ProjectProgress {
  import opened Options
  import opened Seqs
  import opened Tally
  import opened TasksSlice
  import opened ProjectStats

  /** `taskStatusCounts`. */
  function StatusCounts(tasks: seq<Task>): map<string, nat> {
    Histogram(StatusOf(), tasks)
  }

  /** `taskPriorityCounts`. */
  function PriorityCounts(tasks: seq<Task>): map<string, nat> {
    Histogram(PriorityOf(), tasks)
  }

  const StatusLabels: seq<string> := [Completed, InProgress, Todo]
  const PriorityLabels: seq<string> := [Urgent, High, Medium, Low]

  /** The doughnut's data: completed, in progress, to do. Each entry is the
      number of tasks with that status. */
  function StatusVector(tasks: seq<Task>): (v: seq<nat>)
    ensures |v| == |StatusLabels|
    ensures forall i :: 0 <= i < |v| ==> v[i] == Count(KeyIs(StatusOf(), StatusLabels[i]), tasks)
  {
    var m := StatusCounts(tasks);
    HistogramCounts(StatusOf(), tasks, Completed);
    HistogramCounts(StatusOf(), tasks, InProgress);
    HistogramCounts(StatusOf(), tasks, Todo);
    [Lookup(m, Completed), Lookup(m, InProgress), Lookup(m, Todo)]
  }

  /** The bar chart's data: urgent, high, medium, low. Each entry is the
      number of tasks with that priority. */
  function PriorityVector(tasks: seq<Task>): (v: seq<nat>)
    ensures |v| == |PriorityLabels|
    ensures forall i :: 0 <= i < |v| ==> v[i] == Count(KeyIs(PriorityOf(), PriorityLabels[i]), tasks)
  {
    var m := PriorityCounts(tasks);
    HistogramCounts(PriorityOf(), tasks, Urgent);
    HistogramCounts(PriorityOf(), tasks, High);
    HistogramCounts(PriorityOf(), tasks, Medium);
    HistogramCounts(PriorityOf(), tasks, Low);
    [Lookup(m, Urgent), Lookup(m, High), Lookup(m, Medium), Lookup(m, Low)]
  }

  /** The labels read from the histogram, in chart order. */
  function LookupAll(m: map<string, nat>, labels: seq<string>): (v: seq<nat>)
    ensures |v| == |labels|
  {
    seq(|labels|, i requires 0 <= i < |labels| => Lookup(m, labels[i]))
  }

  function Sum(v: seq<nat>): nat
    decreases |v|
  {
    if |v| == 0 then 0 else Sum(v[..|v| - 1]) + v[|v| - 1]
  }

  /** Reading the labels one by one and summing is the vector's sum. */
  lemma {:induction false} SumOfLookups(m: map<string, nat>, labels: seq<string>)
    ensures Sum(LookupAll(m, labels)) == SumLookups(m, labels)
    decreases |labels|
  {
    if |labels| > 0 {
      var init := labels[..|labels| - 1];
      var v := LookupAll(m, labels);
      assert v[..|v| - 1] == LookupAll(m, init);
      SumOfLookups(m, init);
    }
  }

  /** The histogram's values add up to the number of tasks: summed over any
      list of distinct labels that names every status present. */
  lemma StatusHistogramTotal(tasks: seq<Task>, labels: seq<string>)
    requires NoDup(labels)
    requires forall i :: 0 <= i < |tasks| ==> tasks[i].status in labels
    ensures SumLookups(StatusCounts(tasks), labels) == |tasks|
  {
    SumBounds(StatusOf(), tasks, labels);
  }

  lemma StatusVectorIsLookups(tasks: seq<Task>)
    ensures StatusVector(tasks) == LookupAll(StatusCounts(tasks), StatusLabels)
  {
  }

  lemma PriorityVectorIsLookups(tasks: seq<Task>)
    ensures PriorityVector(tasks) == LookupAll(PriorityCounts(tasks), PriorityLabels)
  {
  }

  lemma LabelsDistinct()
    ensures NoDup(StatusLabels) && NoDup(PriorityLabels)
  {
  }

  /** The doughnut never shows more tasks than there are, and shows all of
      them exactly when every status is one of the three. */
  lemma StatusVectorSum(tasks: seq<Task>)
    ensures Sum(StatusVector(tasks)) <= |tasks|
    ensures Sum(StatusVector(tasks)) == |tasks| <==> forall i :: 0 <= i < |tasks| ==> tasks[i].status in StatusLabels
  {
    StatusVectorIsLookups(tasks);
    SumOfLookups(StatusCounts(tasks), StatusLabels);
    LabelsDistinct();
    SumBounds(StatusOf(), tasks, StatusLabels);
  }

  /** Likewise the bar chart, for the four priorities. */
  lemma PriorityVectorSum(tasks: seq<Task>)
    ensures Sum(PriorityVector(tasks)) <= |tasks|
    ensures Sum(PriorityVector(tasks)) == |tasks| <==> forall i :: 0 <= i < |tasks| ==> tasks[i].priority in PriorityLabels
  {
    PriorityVectorIsLookups(tasks);
    SumOfLookups(PriorityCounts(tasks), PriorityLabels);
    LabelsDistinct();
    SumBounds(PriorityOf(), tasks, PriorityLabels);
  }

  /** Reordering the tasks changes neither histogram nor chart. */
  lemma ChartsIgnoreOrder(a: seq<Task>, b: seq<Task>)
    requires multiset(a) == multiset(b)
    ensures StatusCounts(a) == StatusCounts(b) && PriorityCounts(a) == PriorityCounts(b)
    ensures StatusVector(a) == StatusVector(b) && PriorityVector(a) == PriorityVector(b)
  {
    HistogramPermutation(StatusOf(), a, b);
    HistogramPermutation(PriorityOf(), a, b);
  }

  /** One more task adds one to its status bucket and one to its priority
      bucket, and nothing else. */
  lemma AppendBumpsBuckets(tasks: seq<Task>, t: Task, k: string)
    ensures Lookup(StatusCounts(tasks + [t]), k) == Lookup(StatusCounts(tasks), k) + (if t.status == k then 1 else 0)
    ensures Lookup(PriorityCounts(tasks + [t]), k) == Lookup(PriorityCounts(tasks), k) + (if t.priority == k then 1 else 0)
  {
    HistogramAppend(StatusOf(), tasks, t, k);
    HistogramAppend(PriorityOf(), tasks, t, k);
  }

  /** The progress tab and the overview agree: the doughnut plots the
      overview's three status counts and the first bar is its urgent count. */
  lemma ChartsAgreeWithStats(tasks: seq<Task>, dateOf: string -> Option<int>, now: int)
    ensures var s := ComputeStats(tasks, dateOf, now);
            StatusVector(tasks) == [s.completed, s.inProgress, s.todo] && PriorityVector(tasks)[0] == s.urgent
  {
    var v := StatusVector(tasks);
    assert v[0] == Count(KeyIs(StatusOf(), StatusLabels[0]), tasks);
    assert v[1] == Count(KeyIs(StatusOf(), StatusLabels[1]), tasks);
    assert v[2] == Count(KeyIs(StatusOf(), StatusLabels[2]), tasks);
    assert PriorityVector(tasks)[0] == Count(KeyIs(PriorityOf(), PriorityLabels[0]), tasks);
  }
}

=== FILE: project_stats.dfy ===
/** The figures of a project's overview tab (`src/components/ProjectStats.jsx`):
    task counts by status, urgent and overdue counts, and the completion rate
    rounded to a whole percent. The clock and date parsing are parameters:
    `dateOf` reads a stored date string (`None` for an invalid date) and `now`
    is the current time on the same scale. */
module ProjectStats {
  import opened Options
  import opened Seqs
  import opened Tally
  import opened TasksSlice

  function StatusOf(): Task -> string {
    (t: Task) => t.status
  }

  function PriorityOf(): Task -> string {
    (t: Task) => t.priority
  }

  /** `new Date(d) < new Date()`: an invalid date compares false. */
  predicate IsPast(due: Option<int>, now: int) {
    due.Some? && due.value < now
  }

  /** The callback of `overdueTasks`: due in the past and not completed. */
  function IsOverdue(dateOf: string -> Option<int>, now: int): Task -> bool {
    (t: Task) => IsPast(dateOf(t.dueDate), now) && t.status != Completed
  }

  /** `Math.round((completed / total) * 100)`, or 0 without tasks: the whole
      percentage nearest to the exact ratio, halves rounded up. */
  function CompletionRate(completed: nat, total: nat): (rate: int)
    ensures total == 0 ==> rate == 0
    ensures total > 0 ==> 2 * total * rate - total <= 200 * completed < 2 * total * rate + total
  {
    if total == 0 then 0
    else
      var n, d := 200 * completed + total, 2 * total;
      var q, m := n / d, n % d;
      assert n == d * q + m && 0 <= m < d;
      q
  }

  /** The rate is a percentage: 0 when nothing is completed, 100 when
      everything is, and in between otherwise. */
  lemma CompletionRateBounds(completed: nat, total: nat)
    requires completed <= total
    ensures 0 <= CompletionRate(completed, total) <= 100
    ensures completed == 0 ==> CompletionRate(completed, total) == 0
    ensures 0 < completed == total ==> CompletionRate(completed, total) == 100
  {
    var rate := CompletionRate(completed, total);
    if total > 0 {
      if rate < 0 {
        MulNonNeg(total, -(2 * rate + 1));
      }
      if rate > 100 {
        MulNonNeg(total, rate - 101);
      }
      if completed == 0 && rate >= 1 {
        MulNonNeg(total, rate - 1);
      }
      if completed == total && rate <= 99 {
        MulNonNeg(total, 99 - rate);
      }
    }
  }

  lemma MulNonNeg(a: int, b: int)
    requires a >= 0 && b >= 0
    ensures a * b >= 0
  {
  }

  /** Three of six tasks done is 50 percent; one of eight (12.5) rounds up to 13. */
  lemma CompletionRateExamples()
    ensures CompletionRate(3, 6) == 50
    ensures CompletionRate(1, 8) == 13
    ensures CompletionRate(0, 0) == 0
  {
  }

  /** The figures the overview shows. */
  datatype Stats = Stats(
    total: nat,
    completed: nat,
    inProgress: nat,
    todo: nat,
    urgent: nat,
    overdue: nat,
    completionRate: int)

  /** The completed tasks. */
  function CompletedCount(tasks: seq<Task>): nat {
    Count(KeyIs(StatusOf(), Completed), tasks)
  }

  /** The urgent tasks, whatever their status. */
  function UrgentCount(tasks: seq<Task>): (n: nat)
    ensures n <= |tasks|
  {
    Count(KeyIs(PriorityOf(), Urgent), tasks)
  }

  /** The overdue tasks; never more than the tasks not completed. */
  function OverdueCount(tasks: seq<Task>, dateOf: string -> Option<int>, now: int): (n: nat)
    ensures n + CompletedCount(tasks) <= |tasks|
  {
    forall i | 0 <= i < |tasks|
      ensures !(IsOverdue(dateOf, now)(tasks[i]) && KeyIs(StatusOf(), Completed)(tasks[i]))
    {
    }
    CountDisjoint(IsOverdue(dateOf, now), KeyIs(StatusOf(), Completed), tasks);
    Count(IsOverdue(dateOf, now), tasks)
  }

  /** The three known statuses. */
  predicate KnownStatus(t: Task) {
    t.status == Completed || t.status == InProgress || t.status == Todo
  }

  function ComputeStats(tasks: seq<Task>, dateOf: string -> Option<int>, now: int): (s: Stats)
    ensures s.total == |tasks|
    ensures s.completed + s.inProgress + s.todo <= s.total
    ensures s.completed + s.inProgress + s.todo == s.total <==> forall i :: 0 <= i < |tasks| ==> KnownStatus(tasks[i])
    ensures s.urgent <= s.total
    ensures s.overdue <= s.total - s.completed
    ensures 0 <= s.completionRate <= 100
    ensures s.completed == 0 ==> s.completionRate == 0
    ensures s.completed == s.total > 0 ==> s.completionRate == 100
    ensures s.total > 0 ==> 2 * s.total * s.completionRate - s.total <= 200 * s.completed < 2 * s.total * s.completionRate + s.total
    ensures s.completed == Count(KeyIs(StatusOf(), Completed), tasks)
    ensures s.urgent == Count(KeyIs(PriorityOf(), Urgent), tasks)
    ensures s.overdue == Count(IsOverdue(dateOf, now), tasks)
  {
    var completed := Count(KeyIs(StatusOf(), Completed), tasks);
    var inProgress := Count(KeyIs(StatusOf(), InProgress), tasks);
    var todo := Count(KeyIs(StatusOf(), Todo), tasks);
    StatusCountsAdd(tasks);
    CompletionRateBounds(completed, |tasks|);
    Stats(|tasks|, completed, inProgress, todo, UrgentCount(tasks),
          OverdueCount(tasks, dateOf, now), CompletionRate(completed, |tasks|))
  }

  /** The three status counts together count the tasks with a known status. */
  lemma StatusCountsAdd(tasks: seq<Task>)
    ensures var c := Count(KeyIs(StatusOf(), Completed), tasks);
            var p := Count(KeyIs(StatusOf(), InProgress), tasks);
            var t := Count(KeyIs(StatusOf(), Todo), tasks);
            && c + p + t <= |tasks|
            && (c + p + t == |tasks| <==> forall i :: 0 <= i < |tasks| ==> KnownStatus(tasks[i]))
  {
    var isC, isP, isT := KeyIs(StatusOf(), Completed), KeyIs(StatusOf(), InProgress), KeyIs(StatusOf(), Todo);
    CountDisjoint(isC, isP, tasks);
    CountDisjoint(Or(isC, isP), isT, tasks);
    CountAll(Or(Or(isC, isP), isT), tasks);
  }

  /** A later clock never finds fewer overdue tasks. */
  lemma OverdueMonotone(tasks: seq<Task>, dateOf: string -> Option<int>, now: int, later: int)
    requires now <= later
    ensures OverdueCount(tasks, dateOf, now) <= OverdueCount(tasks, dateOf, later)
  {
    forall i | 0 <= i < |tasks|
      ensures IsOverdue(dateOf, now)(tasks[i]) ==> IsOverdue(dateOf, later)(tasks[i])
    {
      var due := dateOf(tasks[i].dueDate);
      assert IsOverdue(dateOf, now)(tasks[i]) == (IsPast(due, now) && tasks[i].status != Completed);
      assert IsOverdue(dateOf, later)(tasks[i]) == (IsPast(due, later) && tasks[i].status != Completed);
    }
    CountMonotone(IsOverdue(dateOf, now), IsOverdue(dateOf, later), tasks);
  }

  /** A task whose due date cannot be read is never overdue. */
  lemma InvalidDateNotOverdue(t: Task, dateOf: string -> Option<int>, now: int)
    requires dateOf(t.dueDate).None?
    ensures !IsOverdue(dateOf, now)(t)
  {
  }

  /** The urgent count does not look at status: lists that agree on every
      task's priority have the same urgent count. */
  lemma UrgentIgnoresStatus(a: seq<Task>, b: seq<Task>)
    requires |a| == |b|
    requires forall i :: 0 <= i < |a| ==> a[i].priority == b[i].priority
    ensures UrgentCount(a) == UrgentCount(b)
  {
    var p := KeyIs(PriorityOf(), Urgent);
    AgreeingCounts(p, a, b);
  }

  /** Two lists whose items agree pointwise on `p` count the same. */
  lemma {:induction false} AgreeingCounts(p: Task -> bool, a: seq<Task>, b: seq<Task>)
    requires |a| == |b|
    requires forall i :: 0 <= i < |a| ==> p(a[i]) == p(b[i])
    ensures Count(p, a) == Count(p, b)
    decreases |a|
  {
    if |a| > 0 {
      AgreeingCounts(p, a[..|a| - 1], b[..|b| - 1]);
    }
  }
}

=== FILE: projects_slice.dfy ===
/** The project store (`src/store/slices/projectsSlice.js`): a flat list of
    project records and the reducers that change it, each a pure function from
    the old list to the new one. A project reducer receives only the project
    list, so it cannot change the tasks. */
module ProjectsSlice {
  import opened Options
  import opened Seqs

  /** A project record. Status and priority are the stored strings; dates and
      timestamps are the stored strings too; `progress` is the stored number. */
  datatype Project = Project(
    id: string,
    title: string,
    description: string,
    status: string,
    priority: string,
    startDate: string,
    endDate: string,
    progress: int,
    color: string,
    teamMembers: seq<string>,
    createdAt: string)

  function ProjectHasId(id: string): Project -> bool {
    (p: Project) => p.id == id
  }

  function ProjectNotId(id: string): Project -> bool {
    (p: Project) => p.id != id
  }

  /** The payload of `updateProject`: the id to look for and the fields it
      carries; `None` is a field the payload does not mention. */
  datatype ProjectPatch = ProjectPatch(
    id: string,
    title: Option<string>,
    description: Option<string>,
    status: Option<string>,
    priority: Option<string>,
    startDate: Option<string>,
    endDate: Option<string>,
    progress: Option<int>,
    color: Option<string>,
    teamMembers: Option<seq<string>>,
    createdAt: Option<string>)

  /** `{ ...p, ...patch }`. */
  function MergeProject(p: Project, patch: ProjectPatch): Project {
    Project(patch.id, patch.title.GetOr(p.title), patch.description.GetOr(p.description),
            patch.status.GetOr(p.status), patch.priority.GetOr(p.priority),
            patch.startDate.GetOr(p.startDate), patch.endDate.GetOr(p.endDate),
            patch.progress.GetOr(p.progress), patch.color.GetOr(p.color),
            patch.teamMembers.GetOr(p.teamMembers), patch.createdAt.GetOr(p.createdAt))
  }

  /** The seed project list; both creation times are the load time `now`. */
  function InitialProjects(now: string): seq<Project> {
    [ Project("1", "Website Redesign", "Complete overhaul of company website with modern design",
              "active", "high", "2024-01-15", "2024-03-15", 65, "#6366f1",
              ["John Doe", "Jane Smith"], now),
      Project("2", "Mobile App Development", "Native mobile application for iOS and Android platforms",
              "active", "urgent", "2024-02-01", "2024-06-01", 30, "#8b5cf6",
              ["Mike Johnson", "Sarah Wilson"], now) ]
  }

  /** `i` is the index `find`/`findIndex` returns for `id`: the first match. */
  predicate IsFirstProject(projects: seq<Project>, i: int, id: string) {
    0 <= i < |projects| && projects[i].id == id && forall j :: 0 <= j < i ==> projects[j].id != id
  }

  /** `addProject`: append the payload under a fresh id, with progress 0 and a
      new creation time, whatever the payload holds in those fields. */
  function AddProject(projects: seq<Project>, payload: Project, freshId: string, now: string): (r: seq<Project>)
    ensures |r| == |projects| + 1
    ensures r[..|projects|] == projects
    ensures r[|projects|].id == freshId && r[|projects|].progress == 0 && r[|projects|].createdAt == now
    ensures r[|projects|].(id := payload.id, progress := payload.progress, createdAt := payload.createdAt) == payload
  {
    projects + [payload.(id := freshId, progress := 0, createdAt := now)]
  }

  /** `updateProject`: shallow-merge the payload into the first project with its
      id; an unknown id changes nothing. */
  function UpdateProject(projects: seq<Project>, patch: ProjectPatch): (r: seq<Project>)
    ensures |r| == |projects|
    ensures (forall i :: 0 <= i < |projects| ==> projects[i].id != patch.id) ==> r == projects
    ensures forall i :: 0 <= i < |projects| && r[i] != projects[i] ==> IsFirstProject(projects, i, patch.id)
    ensures forall i :: IsFirstProject(projects, i, patch.id) ==> r[i] == MergeProject(projects[i], patch)
  {
    match FindIndex(ProjectHasId(patch.id), projects)
    case None => projects
    case Some(i) => projects[i := MergeProject(projects[i], patch)]
  }

  /** `deleteProject`: keep the projects whose id differs, in order. */
  function DeleteProject(projects: seq<Project>, id: string): (r: seq<Project>)
    ensures |r| == Count(ProjectNotId(id), projects)
    ensures forall i :: 0 <= i < |r| ==> r[i].id != id
    ensures forall p :: p in projects && p.id != id ==> p in r
    ensures forall p :: p in r ==> p in projects
    ensures forall p :: multiset(r)[p] == if p.id != id then multiset(projects)[p] else 0
  {
    var r := Filter(ProjectNotId(id), projects);
    FilterMembers(ProjectNotId(id), projects);
    assert forall i :: 0 <= i < |r| ==> r[i] in r;
    r
  }

  /** `updateProjectProgress`: store the value, exactly as given, in the first
      project with that id; an unknown id changes nothing. */
  function UpdateProjectProgress(projects: seq<Project>, projectId: string, progress: int): (r: seq<Project>)
    ensures |r| == |projects|
    ensures forall i :: 0 <= i < |projects| ==> r[i].(progress := projects[i].progress) == projects[i]
    ensures forall i :: 0 <= i < |projects| && r[i] != projects[i] ==> IsFirstProject(projects, i, projectId)
    ensures forall i :: IsFirstProject(projects, i, projectId) ==> r[i].progress == progress
  {
    match FindIndex(ProjectHasId(projectId), projects)
    case None => projects
    case Some(i) => projects[i := projects[i].(progress := progress)]
  }

  /** `setProjects`: the payload replaces the list wholesale. */
  function SetProjects(projects: seq<Project>, payload: seq<Project>): seq<Project> {
    payload
  }

  // ---------------------------------------------------------------------------
  // Laws relating the reducers

  /** `findIndex` on an id returns exactly the first index holding it. */
  lemma FindProjectFirst(projects: seq<Project>, id: string, i: int)
    ensures FindIndex(ProjectHasId(id), projects) == Some(i) <==> IsFirstProject(projects, i, id)
  {
  }

  /** Deleting the fresh id right after adding under it gives back the old list. */
  lemma DeleteUndoesAddProject(projects: seq<Project>, payload: Project, freshId: string, now: string)
    requires forall i :: 0 <= i < |projects| ==> projects[i].id != freshId
    ensures DeleteProject(AddProject(projects, payload, freshId, now), freshId) == projects
  {
    var r := AddProject(projects, payload, freshId, now);
    assert r == projects + [r[|projects|]];
    FilterAppend(ProjectNotId(freshId), projects, [r[|projects|]]);
    FilterKeepsAll(ProjectNotId(freshId), projects);
    FilterSingle(ProjectNotId(freshId), r[|projects|]);
  }

  /** Deleting twice is deleting once. */
  lemma DeleteProjectIdempotent(projects: seq<Project>, id: string)
    ensures DeleteProject(DeleteProject(projects, id), id) == DeleteProject(projects, id)
  {
    FilterKeepsAll(ProjectNotId(id), DeleteProject(projects, id));
  }

  /** The survivors keep their relative order. */
  lemma DeleteProjectKeepsOrder(projects: seq<Project>, id: string)
    ensures IsSubsequence(DeleteProject(projects, id), projects)
  {
    FilterIsSubsequence(ProjectNotId(id), projects);
  }

  /** Applying the same update twice is applying it once. */
  lemma UpdateProjectIdempotent(projects: seq<Project>, patch: ProjectPatch)
    ensures UpdateProject(UpdateProject(projects, patch), patch) == UpdateProject(projects, patch)
  {
    var r := UpdateProject(projects, patch);
    match FindIndex(ProjectHasId(patch.id), projects)
    case None =>
    case Some(i) =>
      assert IsFirstProject(r, i, patch.id);
      FindProjectFirst(r, patch.id, i);
  }

  /** The last progress value written wins. */
  lemma UpdateProgressLastWins(projects: seq<Project>, projectId: string, a: int, b: int)
    ensures UpdateProjectProgress(UpdateProjectProgress(projects, projectId, a), projectId, b)
         == UpdateProjectProgress(projects, projectId, b)
  {
    var r := UpdateProjectProgress(projects, projectId, a);
    match FindIndex(ProjectHasId(projectId), projects)
    case None =>
    case Some(i) =>
      assert IsFirstProject(r, i, projectId);
      FindProjectFirst(r, projectId, i);
  }
}

=== FILE: seqs.dfy ===
/** Sequence operations that the store reducers and views are built from:
    `Array.prototype.filter`, `findIndex`, `splice` and the counting done by
    `filter(...).length`. */
module Seqs {
  import opened Options

  /** `s.filter(p)`: the elements satisfying `p`, in their original order. */
  function Filter<T(!new)>(p: T -> bool, s: seq<T>): (r: seq<T>)
    ensures |r| <= |s|
    ensures forall x :: multiset(r)[x] == if p(x) then multiset(s)[x] else 0
  {
    if |s| == 0 then []
    else
      var init := Filter(p, s[..|s| - 1]);
      assert s == s[..|s| - 1] + [s[|s| - 1]];
      if p(s[|s| - 1]) then init + [s[|s| - 1]] else init
  }

  /** An element survives filtering exactly when it occurs and satisfies `p`. */
  lemma FilterMembers<T(!new)>(p: T -> bool, s: seq<T>)
    ensures forall x :: x in Filter(p, s) <==> x in s && p(x)
  {
    forall x
      ensures x in Filter(p, s) <==> x in s && p(x)
    {
      assert x in Filter(p, s) <==> x in multiset(Filter(p, s));
      assert x in s <==> x in multiset(s);
    }
  }

  /** `s.filter(p).length`. */
  function Count<T(!new)>(p: T -> bool, s: seq<T>): nat {
    |Filter(p, s)|
  }

  /** The disjunction of two predicates, as written inline in a `filter` callback. */
  function Or<T(!new)>(p: T -> bool, q: T -> bool): T -> bool {
    x => p(x) || q(x)
  }

  /** The conjunction of two predicates: one `filter` applied after another. */
  function And<T(!new)>(p: T -> bool, q: T -> bool): T -> bool {
    x => p(x) && q(x)
  }

  /** `a` can be obtained from `b` by deleting elements (matched from the end). */
  predicate IsSubsequence<T(==)>(a: seq<T>, b: seq<T>)
    decreases |b|
  {
    if |a| == 0 then true
    else if |b| == 0 then false
    else if a[|a| - 1] == b[|b| - 1] then IsSubsequence(a[..|a| - 1], b[..|b| - 1])
    else IsSubsequence(a, b[..|b| - 1])
  }

  /** No element occurs twice. */
  predicate NoDup<T(==)>(s: seq<T>) {
    forall i, j :: 0 <= i < j < |s| ==> s[i] != s[j]
  }

  /** `s.findIndex(p)`, with `-1` rendered as `None`. */
  function FindIndex<T(!new)>(p: T -> bool, s: seq<T>): (r: Option<nat>)
    ensures r.Some? ==> r.value < |s| && p(s[r.value]) && forall j :: 0 <= j < r.value ==> !p(s[j])
    ensures r.None? ==> forall j :: 0 <= j < |s| ==> !p(s[j])
  {
    if |s| == 0 then None
    else if p(s[0]) then Some(0)
    else
      match FindIndex(p, s[1..])
      case None => None
      case Some(i) => Some(i + 1)
  }

  /** `s.splice(i, 1)` for an index known to be in range: the rest of the sequence. */
  function RemoveAt<T>(s: seq<T>, i: nat): (r: seq<T>)
    requires i < |s|
    ensures |r| == |s| - 1
    ensures multiset(r) == multiset(s) - multiset{s[i]}
  {
    assert s == s[..i] + [s[i]] + s[i + 1..];
    s[..i] + s[i + 1..]
  }

  /** The elements before `i` stay put and the ones after it shift down by one. */
  lemma RemoveAtIndex<T>(s: seq<T>, i: nat, j: nat)
    requires i < |s| && j < |s| - 1
    ensures RemoveAt(s, i)[j] == if j < i then s[j] else s[j + 1]
  {
  }

  /** Two sequences that agree once `r[p]` and `s[d]` are taken out: the
      successor of `r[p]` is the element of `s` that ended up in its place. */
  lemma SuccessorAfterRemoval<T>(r: seq<T>, s: seq<T>, p: nat, d: nat)
    requires p + 1 < |r| == |s| && d < |s|
    requires RemoveAt(r, p) == RemoveAt(s, d)
    ensures r[p + 1] == if p < d then s[p] else s[p + 1]
  {
    RemoveAtIndex(r, p, p);
    RemoveAtIndex(s, d, p);
  }

  /** Likewise for the predecessor of `r[p]`. */
  lemma PredecessorAfterRemoval<T>(r: seq<T>, s: seq<T>, p: nat, d: nat)
    requires 0 < p < |r| == |s| && d < |s|
    requires RemoveAt(r, p) == RemoveAt(s, d)
    ensures r[p - 1] == if p - 1 < d then s[p - 1] else s[p]
  {
    RemoveAtIndex(r, p, p - 1);
    RemoveAtIndex(s, d, p - 1);
  }

  /** The start position `splice` actually uses: a negative start counts from
      the end and is floored at 0, a start past the end is the end. */
  function ClampStart(start: int, len: nat): (k: nat)
    ensures k <= len
    ensures 0 <= start <= len ==> k == start
    ensures start > len ==> k == len
    ensures start < 0 ==> k == if len + start < 0 then 0 else len + start
  {
    if start < 0 then (if len + start < 0 then 0 else len + start)
    else if start > len then len
    else start
  }

  /** `s.splice(start, 0, x)`: `x` inserted at the clamped start position. */
  function SpliceInsert<T>(s: seq<T>, start: int, x: T): (r: seq<T>)
    ensures |r| == |s| + 1
    ensures multiset(r) == multiset(s) + multiset{x}
    ensures r[ClampStart(start, |s|)] == x
    ensures RemoveAt(r, ClampStart(start, |s|)) == s
  {
    var k := ClampStart(start, |s|);
    var r := s[..k] + [x] + s[k..];
    assert r[..k] == s[..k] && r[k + 1..] == s[k..];
    assert s == s[..k] + s[k..];
    assert multiset(r) == multiset(s[..k]) + multiset{x} + multiset(s[k..]);
    r
  }

  /** `const [x] = s.splice(from, 1); s.splice(to, 0, x)`: the element at
      `from` moved to the clamped position `to` of the shortened sequence. */
  function Move<T>(s: seq<T>, from: nat, to: int): (r: seq<T>)
    requires from < |s|
    ensures |r| == |s|
    ensures multiset(r) == multiset(s)
    ensures r[ClampStart(to, |s| - 1)] == s[from]
    ensures RemoveAt(r, ClampStart(to, |s| - 1)) == RemoveAt(s, from)
  {
    var rest := RemoveAt(s, from);
    assert |rest| == |s| - 1;
    SpliceInsert(rest, to, s[from])
  }

  lemma {:induction false} FilterAppend<T(!new)>(p: T -> bool, a: seq<T>, b: seq<T>)
    ensures Filter(p, a + b) == Filter(p, a) + Filter(p, b)
    decreases |b|
  {
    if |b| == 0 {
      assert a + b == a;
    } else {
      var b' := b[..|b| - 1];
      assert (a + b)[..|a + b| - 1] == a + b';
      FilterAppend(p, a, b');
    }
  }

  /** Filtering a sequence extended by one element. */
  lemma FilterSnoc<T(!new)>(p: T -> bool, s: seq<T>, x: T)
    ensures Filter(p, s + [x]) == Filter(p, s) + (if p(x) then [x] else [])
  {
    assert (s + [x])[..|s|] == s;
  }

  lemma FilterSingle<T(!new)>(p: T -> bool, x: T)
    ensures Filter(p, [x]) == if p(x) then [x] else []
  {
    assert [x][..0] == [];
  }

  /** Filtering twice is filtering once by both predicates. */
  lemma {:induction false} FilterFilter<T(!new)>(p: T -> bool, q: T -> bool, s: seq<T>)
    ensures Filter(q, Filter(p, s)) == Filter(And(p, q), s)
    decreases |s|
  {
    if |s| > 0 {
      var init, x := s[..|s| - 1], s[|s| - 1];
      assert s == init + [x];
      FilterFilter(p, q, init);
      var pq := And(p, q);
      var fp := Filter(p, init);
      assert Filter(pq, s) == Filter(pq, init) + (if p(x) && q(x) then [x] else []) by {
        FilterSnoc(pq, init, x);
        assert pq(x) == (p(x) && q(x));
      }
      if p(x) {
        assert Filter(q, Filter(p, s)) == Filter(q, fp) + (if q(x) then [x] else []) by {
          FilterSnoc(p, init, x);
          FilterSnoc(q, fp, x);
        }
      } else {
        assert Filter(q, Filter(p, s)) == Filter(q, fp) by {
          FilterSnoc(p, init, x);
        }
      }
    }
  }

  /** Predicates that agree on every element filter alike. */
  lemma {:induction false} FilterAgree<T(!new)>(p: T -> bool, q: T -> bool, s: seq<T>)
    requires forall i :: 0 <= i < |s| ==> p(s[i]) == q(s[i])
    ensures Filter(p, s) == Filter(q, s)
    decreases |s|
  {
    if |s| > 0 {
      FilterAgree(p, q, s[..|s| - 1]);
    }
  }

  /** Extending the larger sequence keeps a subsequence a subsequence. */
  lemma {:induction false} SubsequenceExtend<T>(a: seq<T>, b: seq<T>, y: T)
    requires IsSubsequence(a, b)
    ensures IsSubsequence(a, b + [y])
    decreases |b|, 1
  {
    assert (b + [y])[..|b|] == b;
    if |a| > 0 && a[|a| - 1] == y {
      SubsequenceDropLast(a, b);
    }
  }

  /** Dropping the last element of a subsequence keeps it a subsequence. */
  lemma {:induction false} SubsequenceDropLast<T>(a: seq<T>, b: seq<T>)
    requires |a| > 0 && IsSubsequence(a, b)
    ensures IsSubsequence(a[..|a| - 1], b)
    decreases |b|, 0
  {
    var a' := a[..|a| - 1];
    var b' := b[..|b| - 1];
    if a[|a| - 1] == b[|b| - 1] {
      SubsequenceExtend(a', b', b[|b| - 1]);
      assert b' + [b[|b| - 1]] == b;
    } else {
      SubsequenceDropLast(a, b');
      SubsequenceExtend(a', b', b[|b| - 1]);
      assert b' + [b[|b| - 1]] == b;
    }
  }

  /** Filtering keeps the survivors in their original relative order. */
  lemma {:induction false} FilterIsSubsequence<T(!new)>(p: T -> bool, s: seq<T>)
    ensures IsSubsequence(Filter(p, s), s)
    decreases |s|
  {
    if |s| > 0 {
      var s' := s[..|s| - 1];
      FilterIsSubsequence(p, s');
      var r := Filter(p, s);
      if p(s[|s| - 1]) {
        assert r[..|r| - 1] == Filter(p, s');
      } else {
        SubsequenceExtend(Filter(p, s'), s', s[|s| - 1]);
        assert s' + [s[|s| - 1]] == s;
      }
    }
  }

  /** A stronger filter selects a subsequence of what a weaker one selects. */
  lemma {:induction false} FilterStrongerIsSubsequence<T(!new)>(p: T -> bool, q: T -> bool, s: seq<T>)
    requires forall x :: q(x) ==> p(x)
    ensures IsSubsequence(Filter(q, s), Filter(p, s))
    decreases |s|
  {
    if |s| > 0 {
      var s' := s[..|s| - 1];
      var x := s[|s| - 1];
      FilterStrongerIsSubsequence(p, q, s');
      var rq, rp := Filter(q, s), Filter(p, s);
      if q(x) {
        assert rq[..|rq| - 1] == Filter(q, s') && rp[..|rp| - 1] == Filter(p, s');
      } else if p(x) {
        SubsequenceExtend(Filter(q, s'), Filter(p, s'), x);
      }
    }
  }

  /** In a sequence without repetitions every element occurs once. */
  lemma {:induction false} NoDupOccursOnce<T>(s: seq<T>)
    requires NoDup(s)
    ensures forall v :: multiset(s)[v] <= 1
    decreases |s|
  {
    if |s| > 0 {
      var init, x := s[..|s| - 1], s[|s| - 1];
      assert s == init + [x];
      assert NoDup(init);
      NoDupOccursOnce(init);
      assert x !in init;
    }
  }

  /** A repeated element occurs at least twice. */
  lemma RepeatOccursTwice<T>(s: seq<T>, i: nat, j: nat)
    requires i < j < |s| && s[i] == s[j]
    ensures multiset(s)[s[i]] >= 2
  {
    assert s == s[..i] + [s[i]] + s[i + 1..j] + [s[j]] + s[j + 1..];
  }

  /** A sequence has no repeated element exactly when every element occurs at most once. */
  lemma NoDupIffSingletons<T>(s: seq<T>)
    ensures NoDup(s) <==> forall v :: multiset(s)[v] <= 1
  {
    if NoDup(s) {
      NoDupOccursOnce(s);
    } else {
      var i, j :| 0 <= i < j < |s| && s[i] == s[j];
      RepeatOccursTwice(s, i, j);
    }
  }

  /** Filtering never introduces a repetition. */
  lemma FilterKeepsNoDup<T(!new)>(p: T -> bool, s: seq<T>)
    requires NoDup(s)
    ensures NoDup(Filter(p, s))
  {
    NoDupIffSingletons(s);
    NoDupIffSingletons(Filter(p, s));
  }

  /** Filtering with a predicate every element satisfies changes nothing. */
  lemma {:induction false} FilterKeepsAll<T(!new)>(p: T -> bool, s: seq<T>)
    requires forall i :: 0 <= i < |s| ==> p(s[i])
    ensures Filter(p, s) == s
    decreases |s|
  {
    if |s| > 0 {
      var s', x := s[..|s| - 1], s[|s| - 1];
      assert s == s' + [x];
      FilterKeepsAll(p, s');
      FilterSnoc(p, s', x);
    }
  }

  /** Two predicates that never hold together count no more than the whole,
      and exactly their disjunction. */
  lemma {:induction false} CountDisjoint<T(!new)>(p: T -> bool, q: T -> bool, s: seq<T>)
    requires forall i :: 0 <= i < |s| ==> !(p(s[i]) && q(s[i]))
    ensures Count(p, s) + Count(q, s) == Count(Or(p, q), s) <= |s|
    decreases |s|
  {
    if |s| > 0 {
      CountDisjoint(p, q, s[..|s| - 1]);
    }
  }

  /** Every element satisfies `p` exactly when the count is the length. */
  lemma {:induction false} CountAll<T(!new)>(p: T -> bool, s: seq<T>)
    ensures Count(p, s) == |s| <==> forall i :: 0 <= i < |s| ==> p(s[i])
    decreases |s|
  {
    if |s| > 0 {
      var s' := s[..|s| - 1];
      CountAll(p, s');
      if Count(p, s) == |s| {
        assert p(s[|s| - 1]);
        forall i | 0 <= i < |s|
          ensures p(s[i])
        {
          if i < |s| - 1 { assert s'[i] == s[i]; }
        }
      } else {
        assert Count(p, s') < |s'| || !p(s[|s| - 1]);
      }
    }
  }

  /** No element satisfies `p` exactly when the count is zero. */
  lemma {:induction false} CountNone<T(!new)>(p: T -> bool, s: seq<T>)
    ensures Count(p, s) == 0 <==> forall i :: 0 <= i < |s| ==> !p(s[i])
  {
    if Count(p, s) == 0 {
      forall i | 0 <= i < |s|
        ensures !p(s[i])
      {
        assert s[i] in multiset(s);
        assert multiset(Filter(p, s))[s[i]] == 0;
      }
    } else {
      var r := Filter(p, s);
      assert r[0] in multiset(r);
      assert r[0] in multiset(s);
    }
  }

  /** A pointwise weaker predicate counts at least as many elements. */
  lemma {:induction false} CountMonotone<T(!new)>(p: T -> bool, q: T -> bool, s: seq<T>)
    requires forall i :: 0 <= i < |s| ==> p(s[i]) ==> q(s[i])
    ensures Count(p, s) <= Count(q, s)
    decreases |s|
  {
    if |s| > 0 {
      CountMonotone(p, q, s[..|s| - 1]);
    }
  }

  /** Counts depend only on the multiset of elements, not on their order. */
  lemma CountPermutation<T(!new)>(p: T -> bool, a: seq<T>, b: seq<T>)
    requires multiset(a) == multiset(b)
    ensures Count(p, a) == Count(p, b)
  {
    assert multiset(Filter(p, a)) == multiset(Filter(p, b));
  }

  /** A sequence is determined by one of its elements together with the rest. */
  lemma RemoveAtDetermines<T>(a: seq<T>, b: seq<T>, p: nat)
    requires p < |a| == |b| && a[p] == b[p]
    requires RemoveAt(a, p) == RemoveAt(b, p)
    ensures a == b
  {
    forall i | 0 <= i < |a|
      ensures a[i] == b[i]
    {
      if i < p {
        RemoveAtIndex(a, p, i);
        RemoveAtIndex(b, p, i);
      } else if i > p {
        RemoveAtIndex(a, p, i - 1);
        RemoveAtIndex(b, p, i - 1);
      }
    }
  }

  /** Moving the element at `d` to just before the element at `t`. */
  lemma MoveBefore<T>(s: seq<T>, d: nat, t: nat)
    requires d < |s| && t < |s| && d != t
    ensures var k := if d < t then t - 1 else t;
            var r := Move(s, d, k);
            && k + 1 < |r|
            && r[k] == s[d]
            && r[k + 1] == s[t]
            && RemoveAt(r, k) == RemoveAt(s, d)
  {
    var k := if d < t then t - 1 else t;
    assert ClampStart(k, |s| - 1) == k;
    SuccessorAfterRemoval(Move(s, d, k), s, k, d);
  }

  /** Moving the element at `d` to just after the element at `t`. */
  lemma MoveAfter<T>(s: seq<T>, d: nat, t: nat)
    requires d < |s| && t < |s| && d != t
    ensures var k := if d < t then t else t + 1;
            var r := Move(s, d, k);
            && 0 < k < |r|
            && r[k] == s[d]
            && r[k - 1] == s[t]
            && RemoveAt(r, k) == RemoveAt(s, d)
  {
    var k := if d < t then t else t + 1;
    assert ClampStart(k, |s| - 1) == k;
    PredecessorAfterRemoval(Move(s, d, k), s, k, d);
  }

  /** Moving an element to where it already is changes nothing. */
  lemma MoveInPlace<T>(s: seq<T>, d: nat, k: int)
    requires d < |s| && ClampStart(k, |s| - 1) == d
    ensures Move(s, d, k) == s
  {
    RemoveAtDetermines(Move(s, d, k), s, d);
  }

  /** Moving an element one place down swaps it with its successor. */
  lemma MoveOneDown<T>(s: seq<T>, d: nat)
    requires d + 1 < |s|
    ensures Move(s, d, d + 1) == s[..d] + [s[d + 1], s[d]] + s[d + 2..]
  {
    var w := s[..d] + [s[d + 1], s[d]] + s[d + 2..];
    assert ClampStart(d + 1, |s| - 1) == d + 1;
    forall i | 0 <= i < |s| - 1
      ensures RemoveAt(w, d + 1)[i] == RemoveAt(s, d)[i]
    {
      RemoveAtIndex(w, d + 1, i);
      RemoveAtIndex(s, d, i);
    }
    RemoveAtDetermines(Move(s, d, d + 1), w, d + 1);
  }

  lemma MoveSwapsPair<T>(x: T, y: T)
    ensures Move([x, y], 1, 0) == [y, x]
  {
    MoveBefore([x, y], 1, 0);
  }
}

=== FILE: stable_sort.dfy ===
/** `Array.prototype.sort((a, b) => rank(a) - rank(b))`, which is stable: the
    result is ordered by rank, holds the same elements, and elements of equal
    rank keep the order they had. Modelled as insertion sort on sequences. */
module StableSort {
  import opened Seqs

  predicate SortedBy<T>(rank: T -> int, s: seq<T>) {
    forall i, j :: 0 <= i < j < |s| ==> rank(s[i]) <= rank(s[j])
  }

  /** The elements of one rank. */
  function RankIs<T>(rank: T -> int, k: int): T -> bool {
    (x: T) => rank(x) == k
  }

  /** `x` placed after every element whose rank is not larger than its own. */
  function Insert<T(!new)>(rank: T -> int, x: T, s: seq<T>): (r: seq<T>)
    ensures |r| == |s| + 1
    ensures multiset(r) == multiset(s) + multiset{x}
    decreases |s|
  {
    if |s| == 0 || rank(s[|s| - 1]) <= rank(x) then
      s + [x]
    else
      var init, last := s[..|s| - 1], s[|s| - 1];
      assert s == init + [last];
      Insert(rank, x, init) + [last]
  }

  /** Inserting into a sorted list keeps it sorted. */
  lemma {:induction false} InsertSorted<T(!new)>(rank: T -> int, x: T, s: seq<T>)
    requires SortedBy(rank, s)
    ensures SortedBy(rank, Insert(rank, x, s))
    decreases |s|
  {
    if |s| == 0 || rank(s[|s| - 1]) <= rank(x) {
      AppendLargest(rank, s, x);
    } else {
      var init, last := s[..|s| - 1], s[|s| - 1];
      assert s == init + [last];
      InsertSorted(rank, x, init);
      var r' := Insert(rank, x, init);
      forall y | y in r'
        ensures rank(y) <= rank(last)
      {
        assert y in multiset(r');
        if y != x {
          assert y in multiset(init);
          var i :| 0 <= i < |init| && init[i] == y;
          assert s[i] == y;
        }
      }
      AppendLargest(rank, r', last);
    }
  }

  /** Appending an element no smaller than any other keeps a sequence sorted. */
  lemma AppendLargest<T>(rank: T -> int, s: seq<T>, x: T)
    requires SortedBy(rank, s)
    requires forall y :: y in s ==> rank(y) <= rank(x)
    ensures SortedBy(rank, s + [x])
  {
    var r := s + [x];
    forall i, j | 0 <= i < j < |r|
      ensures rank(r[i]) <= rank(r[j])
    {
      if j == |s| {
        assert r[i] in s;
      }
    }
  }

  /** The stable sort by rank. */
  function Sort<T(!new)>(rank: T -> int, s: seq<T>): (r: seq<T>)
    ensures |r| == |s|
    ensures multiset(r) == multiset(s)
    ensures SortedBy(rank, r)
    decreases |s|
  {
    if |s| == 0 then []
    else
      assert s == s[..|s| - 1] + [s[|s| - 1]];
      var sorted := Sort(rank, s[..|s| - 1]);
      InsertSorted(rank, s[|s| - 1], sorted);
      Insert(rank, s[|s| - 1], sorted)
  }

  /** Inserting `x` adds it behind the elements of its own rank. */
  lemma {:induction false} InsertKeepsRankOrder<T(!new)>(rank: T -> int, x: T, s: seq<T>, k: int)
    ensures Filter(RankIs(rank, k), Insert(rank, x, s))
         == Filter(RankIs(rank, k), s) + (if rank(x) == k then [x] else [])
    decreases |s|
  {
    var p := RankIs(rank, k);
    if |s| == 0 || rank(s[|s| - 1]) <= rank(x) {
      assert Insert(rank, x, s) == s + [x];
      FilterSnoc(p, s, x);
    } else {
      var init, last := s[..|s| - 1], s[|s| - 1];
      assert s == init + [last];
      assert Insert(rank, x, s) == Insert(rank, x, init) + [last];
      InsertKeepsRankOrder(rank, x, init, k);
      FilterSnoc(p, Insert(rank, x, init), last);
      FilterSnoc(p, init, last);
      SwapTails(Filter(p, init), if rank(x) == k then [x] else [], if rank(last) == k then [last] else []);
    }
  }

  /** Two tails of which one is empty can be appended in either order. */
  lemma SwapTails<T>(a: seq<T>, xs: seq<T>, ls: seq<T>)
    requires xs == [] || ls == []
    ensures a + xs + ls == a + ls + xs
  {
  }

  /** Stability: the elements of each rank come out in the order they went in. */
  lemma {:induction false} SortIsStable<T(!new)>(rank: T -> int, s: seq<T>, k: int)
    ensures Filter(RankIs(rank, k), Sort(rank, s)) == Filter(RankIs(rank, k), s)
    decreases |s|
  {
    if |s| > 0 {
      var p := RankIs(rank, k);
      var init, last := s[..|s| - 1], s[|s| - 1];
      assert s == init + [last];
      calc {
        Filter(p, Sort(rank, s));
        Filter(p, Insert(rank, last, Sort(rank, init)));
        { InsertKeepsRankOrder(rank, last, Sort(rank, init), k); }
        Filter(p, Sort(rank, init)) + (if rank(last) == k then [last] else []);
        { SortIsStable(rank, init, k); }
        Filter(p, init) + (if p(last) then [last] else []);
        { FilterSnoc(p, init, last); }
        Filter(p, s);
      }
    }
  }

  /** A list already in rank order is left as it is. */
  lemma {:induction false} SortSortedIsIdentity<T(!new)>(rank: T -> int, s: seq<T>)
    requires SortedBy(rank, s)
    ensures Sort(rank, s) == s
    decreases |s|
  {
    if |s| > 0 {
      var init, last := s[..|s| - 1], s[|s| - 1];
      SortedPrefix(rank, s);
      SortSortedIsIdentity(rank, init);
      InsertLargest(rank, last, init);
      assert init + [last] == s;
    }
  }

  /** Dropping the last element of a sorted list leaves it sorted, and that
      element is no smaller than the new last one. */
  lemma SortedPrefix<T>(rank: T -> int, s: seq<T>)
    requires SortedBy(rank, s) && |s| > 0
    ensures SortedBy(rank, s[..|s| - 1])
    ensures |s| > 1 ==> rank(s[|s| - 2]) <= rank(s[|s| - 1])
  {
  }

  /** An element no smaller than the last is inserted at the end. */
  lemma InsertLargest<T(!new)>(rank: T -> int, x: T, s: seq<T>)
    requires |s| == 0 || rank(s[|s| - 1]) <= rank(x)
    ensures Insert(rank, x, s) == s + [x]
  {
  }
}

=== FILE: tally.dfy ===
/** Histograms built by `reduce((acc, x) => { acc[key(x)] = (acc[key(x)] || 0) + 1 })`:
    a map from key to the number of items carrying it. A key that never
    occurs is absent, and reading it with `|| 0` gives zero. */
module Tally {
  import opened Seqs

  /** The filter callback `x => key(x) === k`. */
  function KeyIs<T>(key: T -> string, k: string): T -> bool {
    (x: T) => key(x) == k
  }

  /** The callback `x => labels.includes(key(x))`. */
  function KeyIn<T>(key: T -> string, labels: seq<string>): T -> bool {
    (x: T) => key(x) in labels
  }

  /** `m[k] || 0`. */
  function Lookup(m: map<string, nat>, k: string): nat {
    if k in m then m[k] else 0
  }

  /** The histogram of `key` over `s`, folded from the left as `reduce` does.
      It never stores a zero. */
  function Histogram<T(!new)>(key: T -> string, s: seq<T>): (m: map<string, nat>)
    ensures forall k :: k in m ==> m[k] > 0
    decreases |s|
  {
    if |s| == 0 then map[]
    else
      var m := Histogram(key, s[..|s| - 1]);
      var k := key(s[|s| - 1]);
      m[k := Lookup(m, k) + 1]
  }

  /** Every bucket holds exactly the number of items with that key: the
      histogram agrees with `filter(x => key(x) === k).length`. */
  lemma {:induction false} HistogramCounts<T(!new)>(key: T -> string, s: seq<T>, k: string)
    ensures Lookup(Histogram(key, s), k) == Count(KeyIs(key, k), s)
    decreases |s|
  {
    if |s| > 0 {
      HistogramCounts(key, s[..|s| - 1], k);
    }
  }

  /** A key is present exactly when some item carries it. */
  lemma HistogramKeys<T(!new)>(key: T -> string, s: seq<T>, k: string)
    ensures k in Histogram(key, s) <==> exists i :: 0 <= i < |s| && key(s[i]) == k
  {
    HistogramCounts(key, s, k);
    CountNone(KeyIs(key, k), s);
  }

  /** Appending one item adds one to its own bucket and leaves every other
      bucket alone. */
  lemma HistogramAppend<T(!new)>(key: T -> string, s: seq<T>, x: T, k: string)
    ensures Lookup(Histogram(key, s + [x]), k) == Lookup(Histogram(key, s), k) + (if key(x) == k then 1 else 0)
  {
    assert (s + [x])[..|s + [x]| - 1] == s;
  }

  /** The histogram does not depend on the order of the items. */
  lemma HistogramPermutation<T(!new)>(key: T -> string, a: seq<T>, b: seq<T>)
    requires multiset(a) == multiset(b)
    ensures Histogram(key, a) == Histogram(key, b)
  {
    var ma, mb := Histogram(key, a), Histogram(key, b);
    forall k
      ensures Lookup(ma, k) == Lookup(mb, k)
    {
      HistogramCounts(key, a, k);
      HistogramCounts(key, b, k);
      CountPermutation(KeyIs(key, k), a, b);
    }
    assert forall k :: k in ma <==> Lookup(ma, k) > 0;
    assert forall k :: k in mb <==> Lookup(mb, k) > 0;
    assert ma.Keys == mb.Keys;
  }

  /** The values of `labels` read from `m`, summed. */
  function SumLookups(m: map<string, nat>, labels: seq<string>): nat
    decreases |labels|
  {
    if |labels| == 0 then 0
    else SumLookups(m, labels[..|labels| - 1]) + Lookup(m, labels[|labels| - 1])
  }

  /** Summing the buckets of distinct labels counts the items whose key is
      one of them. */
  lemma {:induction false} SumCounts<T(!new)>(key: T -> string, s: seq<T>, labels: seq<string>)
    requires NoDup(labels)
    ensures SumLookups(Histogram(key, s), labels) == Count(KeyIn(key, labels), s)
    decreases |labels|
  {
    if |labels| == 0 {
      CountNone(KeyIn(key, labels), s);
    } else {
      var init, l := labels[..|labels| - 1], labels[|labels| - 1];
      assert labels == init + [l];
      assert NoDup(init) && l !in init;
      SumCounts(key, s, init);
      HistogramCounts(key, s, l);
      forall i | 0 <= i < |s|
        ensures !(KeyIn(key, init)(s[i]) && KeyIs(key, l)(s[i]))
      {
      }
      CountDisjoint(KeyIn(key, init), KeyIs(key, l), s);
      SameCount(Or(KeyIn(key, init), KeyIs(key, l)), KeyIn(key, labels), s);
    }
  }

  /** Predicates that agree on every item count the same. */
  lemma SameCount<T(!new)>(p: T -> bool, q: T -> bool, s: seq<T>)
    requires forall i :: 0 <= i < |s| ==> p(s[i]) == q(s[i])
    ensures Count(p, s) == Count(q, s)
  {
    CountMonotone(p, q, s);
    CountMonotone(q, p, s);
  }

  /** The buckets of distinct labels sum to at most the number of items, and
      to exactly that number when every key is one of the labels. */
  lemma SumBounds<T(!new)>(key: T -> string, s: seq<T>, labels: seq<string>)
    requires NoDup(labels)
    ensures SumLookups(Histogram(key, s), labels) <= |s|
    ensures SumLookups(Histogram(key, s), labels) == |s| <==> forall i :: 0 <= i < |s| ==> key(s[i]) in labels
  {
    SumCounts(key, s, labels);
    CountAll(KeyIn(key, labels), s);
  }
}

=== FILE: task_hierarchy.dfy ===
/** The hierarchy view of a project's tasks (`src/components/TaskHierarchy.jsx`):
    root tasks and their children are found by scanning `parentTaskId`, never
    from the cached `subtasks` lists, and only two levels are rendered because
    every child row is handed an empty list of subtasks. The view's one state
    change is the status toggle. */
module TaskHierarchy {
  import opened Options
  import opened Seqs
  import opened TasksSlice

  /** The callback of `rootTasks`: a falsy `parentTaskId`. */
  function IsRoot(): Task -> bool {
    (t: Task) => !HasParent(t)
  }

  /** The callback of `getSubtasks(id)`: `parentTaskId === id`. */
  function ChildOf(id: string): Task -> bool {
    (t: Task) => t.parentTaskId == Some(id)
  }

  /** `rootTasks`: the tasks without a (truthy) parent. */
  function RootTasks(tasks: seq<Task>): (r: seq<Task>)
    ensures forall t :: t in r <==> t in tasks && !HasParent(t)
  {
    FilterMembers(IsRoot(), tasks);
    Filter(IsRoot(), tasks)
  }

  /** `getSubtasks(id)`: the tasks whose parent link is `id`. */
  function GetSubtasks(tasks: seq<Task>, id: string): (r: seq<Task>)
    ensures forall t :: t in r <==> t in tasks && t.parentTaskId == Some(id)
  {
    FilterMembers(ChildOf(id), tasks);
    Filter(ChildOf(id), tasks)
  }

  /** Roots and children keep their list order, and a task listed twice is
      found twice. */
  lemma ScanKeepsOrder(tasks: seq<Task>, id: string)
    ensures IsSubsequence(RootTasks(tasks), tasks) && IsSubsequence(GetSubtasks(tasks, id), tasks)
    ensures forall t :: multiset(RootTasks(tasks))[t] == if HasParent(t) then 0 else multiset(tasks)[t]
    ensures forall t :: multiset(GetSubtasks(tasks, id))[t] == if t.parentTaskId == Some(id) then multiset(tasks)[t] else 0
  {
    FilterIsSubsequence(IsRoot(), tasks);
    FilterIsSubsequence(ChildOf(id), tasks);
  }

  /** One rendered `TaskItem`: the task and its indentation level. */
  datatype Row = Row(task: Task, level: nat)

  /** The children of one root, one level down. */
  function ChildRows(children: seq<Task>): (r: seq<Row>)
    ensures |r| == |children|
    ensures forall i :: 0 <= i < |r| ==> r[i] == Row(children[i], 1)
  {
    seq(|children|, i requires 0 <= i < |children| => Row(children[i], 1))
  }

  /** The rows for a list of roots: each root at level 0 followed by its
      children at level 1. A child row receives no subtasks, so nothing below
      it is rendered. */
  function RootRows(tasks: seq<Task>, roots: seq<Task>): seq<Row>
    decreases |roots|
  {
    if |roots| == 0 then []
    else
      var r := roots[|roots| - 1];
      RootRows(tasks, roots[..|roots| - 1]) + [Row(r, 0)] + ChildRows(GetSubtasks(tasks, r.id))
  }

  /** Every row the tree shows, with the list fully expanded. */
  function Rows(tasks: seq<Task>): seq<Row> {
    RootRows(tasks, RootTasks(tasks))
  }

  /** What the component renders: a placeholder when there is no root task,
      otherwise the tree. */
  datatype View = NoTasksMessage | Tree(rows: seq<Row>)

  /** The render at lines 197-214 of `TaskHierarchy.jsx`, without the stray
      `onReorder` attribute at line 201, which makes that JSX fail to parse. */
  function Render(tasks: seq<Task>): (v: View)
    ensures v.NoTasksMessage? <==> forall i :: 0 <= i < |tasks| ==> HasParent(tasks[i])
    ensures v.Tree? ==> v.rows == Rows(tasks)
  {
    var roots := RootTasks(tasks);
    if |roots| == 0 then
      assert forall i :: 0 <= i < |tasks| ==> tasks[i] in tasks;
      NoTasksMessage
    else
      assert roots[0] in roots;
      Tree(Rows(tasks))
  }

  // ---------------------------------------------------------------------------
  // What is shown

  /** A row of the tree is a listed root at level 0, or a child of a listed
      root at level 1; nothing else. */
  lemma {:induction false} RootRowsMembers(tasks: seq<Task>, roots: seq<Task>, row: Row)
    ensures row in RootRows(tasks, roots) <==>
              || (row.level == 0 && row.task in roots)
              || (row.level == 1 && row.task in tasks && UnderSomeRoot(roots, row.task))
    decreases |roots|
  {
    if |roots| > 0 {
      var init, r := roots[..|roots| - 1], roots[|roots| - 1];
      var kids := ChildRows(GetSubtasks(tasks, r.id));
      RootRowsMembers(tasks, init, row);
      RootRowsSnoc(tasks, init, r);
      ChildRowsMembers(GetSubtasks(tasks, r.id), row);
      assert row in RootRows(tasks, roots) <==> row in RootRows(tasks, init) || row == Row(r, 0) || row in kids;
      assert row.task in roots <==> row.task in init || row.task == r;
      assert UnderSomeRoot(roots, row.task) <==> UnderSomeRoot(init, row.task) || ChildOf(r.id)(row.task);
    }
  }

  /** `t` is the child of one of `roots`. */
  predicate UnderSomeRoot(roots: seq<Task>, t: Task)
    decreases |roots|
  {
    |roots| > 0 && (UnderSomeRoot(roots[..|roots| - 1], t) || ChildOf(roots[|roots| - 1].id)(t))
  }

  lemma {:induction false} UnderSomeRootExists(roots: seq<Task>, t: Task)
    ensures UnderSomeRoot(roots, t) <==> exists q :: q in roots && ChildOf(q.id)(t)
    decreases |roots|
  {
    if |roots| > 0 {
      var init, r := roots[..|roots| - 1], roots[|roots| - 1];
      UnderSomeRootExists(init, t);
      assert roots == init + [r];
      if exists q :: q in roots && ChildOf(q.id)(t) {
        var q :| q in roots && ChildOf(q.id)(t);
        assert q in init || q == r;
      }
    }
  }

  lemma ChildRowsMembers(children: seq<Task>, row: Row)
    ensures row in ChildRows(children) <==> row.level == 1 && row.task in children
  {
    var kids := ChildRows(children);
    if row in kids {
      var i :| 0 <= i < |kids| && kids[i] == row;
    }
    if row.level == 1 && row.task in children {
      var i :| 0 <= i < |children| && children[i] == row.task;
      assert kids[i] == row;
    }
  }

  /** The rows of one more root follow those of the earlier roots. */
  lemma RootRowsSnoc(tasks: seq<Task>, init: seq<Task>, r: Task)
    ensures RootRows(tasks, init + [r])
         == RootRows(tasks, init) + ([Row(r, 0)] + ChildRows(GetSubtasks(tasks, r.id)))
  {
    var roots := init + [r];
    assert roots[..|roots| - 1] == init;
  }

  /** A task is shown at level 0 exactly when it is a root, at level 1 exactly
      when its parent is a root, and at no other level. */
  lemma ShownExactly(tasks: seq<Task>, t: Task, level: nat)
    ensures Row(t, 0) in Rows(tasks) <==> t in tasks && !HasParent(t)
    ensures Row(t, 1) in Rows(tasks) <==>
              t in tasks && exists q :: q in tasks && !HasParent(q) && t.parentTaskId == Some(q.id)
    ensures level > 1 ==> Row(t, level) !in Rows(tasks)
  {
    var roots := RootTasks(tasks);
    RootRowsMembers(tasks, roots, Row(t, 0));
    RootRowsMembers(tasks, roots, Row(t, 1));
    RootRowsMembers(tasks, roots, Row(t, level));
    UnderSomeRootExists(roots, t);
    if Row(t, 1) in Rows(tasks) {
      var q :| q in roots && ChildOf(q.id)(t);
      assert q in tasks && !HasParent(q);
    }
    if t in tasks && exists q :: q in tasks && !HasParent(q) && t.parentTaskId == Some(q.id) {
      var q :| q in tasks && !HasParent(q) && t.parentTaskId == Some(q.id);
      assert q in roots && ChildOf(q.id)(t);
    }
  }

  /** Two listed tasks with the same id are the same task. */
  lemma SameIdSameTask(tasks: seq<Task>, a: Task, b: Task)
    requires ValidIds(tasks) && a in tasks && b in tasks && a.id == b.id
    ensures a == b
  {
    var i :| 0 <= i < |tasks| && tasks[i] == a;
    var j :| 0 <= j < |tasks| && tasks[j] == b;
    assert i == j;
  }

  /** A task whose parent has a parent of its own is never shown. */
  lemma GrandchildHidden(tasks: seq<Task>, g: Task, p: Task, level: nat)
    requires ValidIds(tasks) && g in tasks && p in tasks
    requires g.parentTaskId == Some(p.id) && HasParent(p)
    ensures Row(g, level) !in Rows(tasks)
  {
    ShownExactly(tasks, g, level);
    if Row(g, 1) in Rows(tasks) {
      var q :| q in tasks && !HasParent(q) && g.parentTaskId == Some(q.id);
      SameIdSameTask(tasks, p, q);
    }
  }

  /** A task whose parent link names no listed task is never shown. */
  lemma DanglingHidden(tasks: seq<Task>, t: Task, level: nat)
    requires HasParent(t)
    requires forall i :: 0 <= i < |tasks| ==> Some(tasks[i].id) != t.parentTaskId
    ensures Row(t, level) !in Rows(tasks)
  {
    ShownExactly(tasks, t, level);
  }

  // ---------------------------------------------------------------------------
  // Every task is shown at most once

  /** No task is rendered in two rows. */
  predicate DistinctTasks(rows: seq<Row>) {
    forall i, j :: 0 <= i < j < |rows| ==> rows[i].task != rows[j].task
  }

  lemma DistinctConcat(a: seq<Row>, b: seq<Row>)
    requires DistinctTasks(a) && DistinctTasks(b)
    requires forall x, y :: x in a && y in b ==> x.task != y.task
    ensures DistinctTasks(a + b)
  {
    var s := a + b;
    forall i, j | 0 <= i < j < |s|
      ensures s[i].task != s[j].task
    {
      if i < |a| && |a| <= j {
        assert s[i] in a && s[j] in b;
      }
    }
  }

  /** A root is nobody's child, given non-empty ids. */
  lemma RootIsNoChild(tasks: seq<Task>, r: Task, q: Task)
    requires ValidIds(tasks) && q in tasks && !HasParent(r)
    ensures !ChildOf(q.id)(r)
  {
    var i :| 0 <= i < |tasks| && tasks[i] == q;
  }

  /** The children rows of one root show distinct tasks. */
  lemma ChildRowsDistinct(tasks: seq<Task>, id: string)
    requires ValidIds(tasks)
    ensures DistinctTasks(ChildRows(GetSubtasks(tasks, id)))
  {
    var kids := GetSubtasks(tasks, id);
    assert NoDup(tasks);
    FilterKeepsNoDup(ChildOf(id), tasks);
    var s := ChildRows(kids);
    forall i, j | 0 <= i < j < |s|
      ensures s[i].task != s[j].task
    {
      assert s[i].task == kids[i] && s[j].task == kids[j];
    }
  }

  /** The rows of one root: the root followed by its children. */
  lemma OneRootDistinct(tasks: seq<Task>, r: Task)
    requires ValidIds(tasks) && r in tasks && !HasParent(r)
    ensures DistinctTasks([Row(r, 0)] + ChildRows(GetSubtasks(tasks, r.id)))
  {
    var kids := GetSubtasks(tasks, r.id);
    ChildRowsDistinct(tasks, r.id);
    RootIsNoChild(tasks, r, r);
    assert r !in kids;
    var c := ChildRows(kids);
    forall y | y in c
      ensures r != y.task
    {
      var j :| 0 <= j < |c| && c[j] == y;
      assert y.task == kids[j];
    }
    DistinctConcat([Row(r, 0)], c);
  }

  /** The rows of the earlier roots never show a task of the next root's rows. */
  lemma NextRootDisjoint(tasks: seq<Task>, init: seq<Task>, r: Task, x: Row, y: Row)
    requires ValidIds(tasks) && r in tasks && !HasParent(r) && r !in init
    requires forall q :: q in init ==> q in tasks && !HasParent(q)
    requires x in RootRows(tasks, init)
    requires y in [Row(r, 0)] + ChildRows(GetSubtasks(tasks, r.id))
    ensures x.task != y.task
  {
    RootRowsMembers(tasks, init, x);
    UnderSomeRootExists(init, x.task);
    var kids := GetSubtasks(tasks, r.id);
    if y.task != r {
      var i :| 0 <= i < |[Row(r, 0)] + ChildRows(kids)| && ([Row(r, 0)] + ChildRows(kids))[i] == y;
      assert y.task in kids;
    }
    if x.level == 0 {
      if y.task != r {
        RootIsNoChild(tasks, x.task, r);
      }
    } else {
      var q :| q in init && ChildOf(q.id)(x.task);
      if y.task == r {
        RootIsNoChild(tasks, r, q);
      } else if x.task == y.task {
        SameIdSameTask(tasks, q, r);
      }
    }
  }

  /** The rows of the earlier roots and those of the next root share no task. */
  lemma NextRootAllDisjoint(tasks: seq<Task>, init: seq<Task>, r: Task)
    requires ValidIds(tasks) && r in tasks && !HasParent(r) && r !in init
    requires forall q :: q in init ==> q in tasks && !HasParent(q)
    ensures forall x, y :: x in RootRows(tasks, init) && y in [Row(r, 0)] + ChildRows(GetSubtasks(tasks, r.id)) ==>
              x.task != y.task
  {
    forall x, y | x in RootRows(tasks, init) && y in [Row(r, 0)] + ChildRows(GetSubtasks(tasks, r.id))
      ensures x.task != y.task
    {
      NextRootDisjoint(tasks, init, r, x, y);
    }
  }

  /** Adding one more root keeps the rows' tasks distinct. */
  lemma RootRowsStep(tasks: seq<Task>, init: seq<Task>, r: Task)
    requires ValidIds(tasks) && r in tasks && !HasParent(r) && r !in init
    requires forall q :: q in init ==> q in tasks && !HasParent(q)
    requires DistinctTasks(RootRows(tasks, init))
    ensures DistinctTasks(RootRows(tasks, init + [r]))
  {
    var a, b := RootRows(tasks, init), [Row(r, 0)] + ChildRows(GetSubtasks(tasks, r.id));
    OneRootDistinct(tasks, r);
    NextRootAllDisjoint(tasks, init, r);
    DistinctConcat(a, b);
    RootRowsSnoc(tasks, init, r);
  }

  lemma {:induction false} RootRowsDistinct(tasks: seq<Task>, roots: seq<Task>)
    requires ValidIds(tasks) && NoDup(roots)
    requires forall q :: q in roots ==> q in tasks && !HasParent(q)
    ensures DistinctTasks(RootRows(tasks, roots))
    decreases |roots|
  {
    if |roots| > 0 {
      var init, r := roots[..|roots| - 1], roots[|roots| - 1];
      assert roots == init + [r];
      forall q | q in init
        ensures q in tasks && !HasParent(q)
      {
        assert q in roots;
      }
      assert r in roots;
      assert r !in init;
      assert NoDup(init) by {
        forall i, j | 0 <= i < j < |init|
          ensures init[i] != init[j]
        {
          assert init[i] == roots[i] && init[j] == roots[j];
        }
      }
      RootRowsDistinct(tasks, init);
      RootRowsStep(tasks, init, r);
    }
  }

  /** With unique, non-empty ids every task is shown at most once, and no
      task is shown both as a root and as a child. */
  lemma ShownAtMostOnce(tasks: seq<Task>)
    requires ValidIds(tasks)
    ensures DistinctTasks(Rows(tasks))
    ensures forall t :: !(Row(t, 0) in Rows(tasks) && Row(t, 1) in Rows(tasks))
  {
    var roots := RootTasks(tasks);
    assert NoDup(tasks);
    FilterKeepsNoDup(IsRoot(), tasks);
    RootRowsDistinct(tasks, roots);
  }

  /** Under the hierarchy invariant the scan agrees with the cached list: the
      ids `getSubtasks` finds are exactly the parent's `subtasks`. */
  lemma ScanAgreesWithCache(tasks: seq<Task>, p: Task)
    requires HierarchyConsistent(tasks) && p in tasks
    ensures (set c | c in GetSubtasks(tasks, p.id) :: c.id) == Elems(p.subtasks)
  {
  }

  // ---------------------------------------------------------------------------
  // The status toggle

  /** A completed task becomes `todo`; every other status becomes `completed`. */
  function ToggledStatus(status: string): (s: string)
    ensures s == Completed <==> status != Completed
    ensures s == Todo <==> status == Completed
  {
    if status == Completed then Todo else Completed
  }

  /** Toggling twice restores exactly the two statuses the toggle produces. */
  lemma ToggleTwice(status: string)
    ensures ToggledStatus(ToggledStatus(status)) == status <==> status == Completed || status == Todo
  {
  }

  /** `handleToggleStatus(task)`: dispatch `updateTask` with the whole task and
      its toggled status. */
  function HandleToggleStatus(tasks: seq<Task>, task: Task): (r: seq<Task>)
    ensures |r| == |tasks|
    ensures forall i :: IsFirstWithId(tasks, i, task.id) ==> r[i] == task.(status := ToggledStatus(task.status))
    ensures forall i :: 0 <= i < |tasks| && !IsFirstWithId(tasks, i, task.id) ==> r[i] == tasks[i]
  {
    UpdateTask(tasks, WholeTask(task.(status := ToggledStatus(task.status))))
  }

  /** Toggling a listed task changes its status and nothing else. */
  lemma ToggleChangesOnlyStatus(tasks: seq<Task>, i: nat)
    requires i < |tasks| && IsFirstWithId(tasks, i, tasks[i].id)
    ensures HandleToggleStatus(tasks, tasks[i]) == tasks[i := tasks[i].(status := ToggledStatus(tasks[i].status))]
  {
  }

  /** Toggling a completed or `todo` task twice gives back the list. */
  lemma ToggleTwiceRestores(tasks: seq<Task>, i: nat)
    requires i < |tasks| && IsFirstWithId(tasks, i, tasks[i].id)
    requires tasks[i].status == Completed || tasks[i].status == Todo
    ensures var once := HandleToggleStatus(tasks, tasks[i]);
            HandleToggleStatus(once, once[i]) == tasks
  {
    var once := HandleToggleStatus(tasks, tasks[i]);
    ToggleChangesOnlyStatus(tasks, i);
    assert IsFirstWithId(once, i, once[i].id);
    ToggleChangesOnlyStatus(once, i);
    ToggleTwice(tasks[i].status);
  }
}

=== FILE: tasks_slice.dfy ===
/** The task store (`src/store/slices/tasksSlice.js`): a list of tasks forming a
    self-referential tree through `parentTaskId`, with a cached `subtasks` id
    list on every parent, and the reducers that change it. Every reducer is a
    pure function from the old task list to the new one. */
module TasksSlice {
  import opened Options
  import opened Seqs

  const Todo := "todo"
  const InProgress := "in-progress"
  const Completed := "completed"

  const Low := "low"
  const Medium := "medium"
  const High := "high"
  const Urgent := "urgent"

  /** A task record. Status and priority are the stored strings (an update can
      store any value); dates and timestamps are the stored strings too. */
  datatype Task = Task(
    id: string,
    projectId: string,
    title: string,
    description: string,
    status: string,
    priority: string,
    dueDate: string,
    parentTaskId: Option<string>,
    subtasks: seq<string>,
    assignee: string,
    createdAt: string)

  /** `parentTaskId` is truthy: neither null/undefined nor the empty string. */
  predicate HasParent(t: Task) {
    t.parentTaskId.Some? && t.parentTaskId.value != ""
  }

  function HasId(id: string): Task -> bool {
    (t: Task) => t.id == id
  }

  function NotId(id: string): Task -> bool {
    (t: Task) => t.id != id
  }

  function NotEqual(x: string): string -> bool {
    (y: string) => y != x
  }

  /** The payload of `updateTask`: the id to look for and the fields it carries;
      `None` is a field the payload does not mention. */
  datatype TaskPatch = TaskPatch(
    id: string,
    projectId: Option<string>,
    title: Option<string>,
    description: Option<string>,
    status: Option<string>,
    priority: Option<string>,
    dueDate: Option<string>,
    parentTaskId: Option<Option<string>>,
    subtasks: Option<seq<string>>,
    assignee: Option<string>,
    createdAt: Option<string>)

  /** A payload that mentions nothing but the id. */
  function IdOnly(id: string): TaskPatch {
    TaskPatch(id, None, None, None, None, None, None, None, None, None, None)
  }

  /** A payload spreading a whole task, as `updateTask({ ...task, ... })` does. */
  function WholeTask(t: Task): TaskPatch {
    TaskPatch(t.id, Some(t.projectId), Some(t.title), Some(t.description), Some(t.status),
              Some(t.priority), Some(t.dueDate), Some(t.parentTaskId), Some(t.subtasks),
              Some(t.assignee), Some(t.createdAt))
  }

  /** `{ ...t, ...p }`. */
  function MergeTask(t: Task, p: TaskPatch): Task {
    Task(p.id, p.projectId.GetOr(t.projectId), p.title.GetOr(t.title),
         p.description.GetOr(t.description), p.status.GetOr(t.status),
         p.priority.GetOr(t.priority), p.dueDate.GetOr(t.dueDate),
         p.parentTaskId.GetOr(t.parentTaskId), p.subtasks.GetOr(t.subtasks),
         p.assignee.GetOr(t.assignee), p.createdAt.GetOr(t.createdAt))
  }

  /** The filter criteria; each is `"all"` when not filtering. */
  datatype Filters = Filters(status: string, priority: string, assignee: string)

  datatype FiltersPatch = FiltersPatch(status: Option<string>, priority: Option<string>, assignee: Option<string>)

  const InitialFilters := Filters("all", "all", "all")

  /** The seed task list: task 1 of project 1 with its two subtasks 2 and 3,
      and the root task 4 of project 2. */
  const InitialTasks: seq<Task> := [
    Task("1", "1", "Design Homepage Layout", "Create wireframes and mockups for the new homepage",
         Completed, High, "2024-02-01", None, ["2", "3"], "Jane Smith", "2024-01-15T00:00:00.000Z"),
    Task("2", "1", "Create Header Component", "Develop responsive header with navigation",
         InProgress, Medium, "2024-02-05", Some("1"), [], "John Doe", "2024-01-16T00:00:00.000Z"),
    Task("3", "1", "Design Footer Layout", "Create footer with links and contact information",
         Todo, Low, "2024-02-10", Some("1"), [], "Jane Smith", "2024-01-17T00:00:00.000Z"),
    Task("4", "2", "Setup Development Environment", "Configure React Native development environment",
         Completed, Urgent, "2024-02-05", None, [], "Mike Johnson", "2024-02-01T00:00:00.000Z")
  ]

  // ---------------------------------------------------------------------------
  // The hierarchy invariant

  /** Ids are unique across the whole list and never empty. */
  predicate ValidIds(tasks: seq<Task>) {
    && (forall i, j :: 0 <= i < j < |tasks| ==> tasks[i].id != tasks[j].id)
    && (forall i :: 0 <= i < |tasks| ==> tasks[i].id != "")
  }

  /** The ids of the tasks whose `parentTaskId` is `id`: the authoritative link. */
  function ChildIds(tasks: seq<Task>, id: string): set<string> {
    set t | t in tasks && t.parentTaskId == Some(id) :: t.id
  }

  function Elems(ids: seq<string>): set<string> {
    set x | x in ids
  }

  /** Every task's cached `subtasks` holds exactly the ids of its children. */
  predicate HierarchyConsistent(tasks: seq<Task>) {
    forall t :: t in tasks ==> Elems(t.subtasks) == ChildIds(tasks, t.id)
  }

  /** `id` does not occur in the list, neither as a task id nor as a parent link. */
  predicate IsFreshId(tasks: seq<Task>, id: string) {
    && id != ""
    && (forall i :: 0 <= i < |tasks| ==> tasks[i].id != id)
    && (forall i :: 0 <= i < |tasks| ==> tasks[i].parentTaskId != Some(id))
  }

  // ---------------------------------------------------------------------------
  // Reducers

  /** `i` is the index `find`/`findIndex` returns for `id`: the first match. */
  predicate IsFirstWithId(tasks: seq<Task>, i: int, id: string) {
    0 <= i < |tasks| && tasks[i].id == id && forall j :: 0 <= j < i ==> tasks[j].id != id
  }

  /** The index `addTask` links the new task into: the first task whose id is
      the payload's (truthy) parent. */
  predicate IsParentSlot(tasks: seq<Task>, payload: Task, i: int) {
    HasParent(payload) && IsFirstWithId(tasks, i, payload.parentTaskId.value)
  }

  /** `addTask`: append the payload under a fresh id with no subtasks and a new
      creation time, then append the id to its parent's `subtasks` unless it is
      there already. The fresh id is never the payload's own parent. */
  function AddTask(tasks: seq<Task>, payload: Task, freshId: string, now: string): (r: seq<Task>)
    requires payload.parentTaskId != Some(freshId)
    ensures |r| == |tasks| + 1
    ensures r[|tasks|] == payload.(id := freshId, subtasks := [], createdAt := now)
    ensures forall i :: 0 <= i < |tasks| ==> r[i].(subtasks := tasks[i].subtasks) == tasks[i]
    ensures forall i :: 0 <= i < |tasks| && r[i] != tasks[i] ==> IsParentSlot(tasks, payload, i)
    ensures forall i :: IsParentSlot(tasks, payload, i) ==>
              && freshId in r[i].subtasks
              && tasks[i].subtasks <= r[i].subtasks
              && |r[i].subtasks| <= |tasks[i].subtasks| + 1
    ensures forall i :: IsParentSlot(tasks, payload, i) && freshId in tasks[i].subtasks ==> r[i] == tasks[i]
    ensures forall i :: IsParentSlot(tasks, payload, i) && freshId !in tasks[i].subtasks ==>
              r[i].subtasks == tasks[i].subtasks + [freshId]
    ensures forall i :: 0 <= i < |tasks| && NoDup(tasks[i].subtasks) ==> NoDup(r[i].subtasks)
    ensures (forall i :: !IsParentSlot(tasks, payload, i)) ==> r[..|tasks|] == tasks
  {
    var child := payload.(id := freshId, subtasks := [], createdAt := now);
    var s := tasks + [child];
    if !HasParent(child) then s
    else
      match FindIndex(HasId(child.parentTaskId.value), s)
      case None => s
      case Some(i) =>
        assert forall j :: 0 <= j < i ==> s[j] == tasks[j];
        assert IsParentSlot(tasks, payload, i);
        if freshId in s[i].subtasks then s
        else s[i := s[i].(subtasks := s[i].subtasks + [freshId])]
  }

  /** `updateTask`: shallow-merge the payload into the first task with its id;
      an unknown id changes nothing. */
  function UpdateTask(tasks: seq<Task>, patch: TaskPatch): (r: seq<Task>)
    ensures |r| == |tasks|
    ensures (forall i :: 0 <= i < |tasks| ==> tasks[i].id != patch.id) ==> r == tasks
    ensures forall i :: 0 <= i < |tasks| && r[i] != tasks[i] ==> IsFirstWithId(tasks, i, patch.id)
    ensures forall i :: IsFirstWithId(tasks, i, patch.id) ==> r[i] == MergeTask(tasks[i], patch)
  {
    match FindIndex(HasId(patch.id), tasks)
    case None => tasks
    case Some(i) => tasks[i := MergeTask(tasks[i], patch)]
  }

  /** The task with `x` removed from its cached `subtasks`. */
  function StripChild(t: Task, x: string): (r: Task)
    ensures x !in r.subtasks
    ensures r.(subtasks := t.subtasks) == t
  {
    var kept := Filter(NotEqual(x), t.subtasks);
    assert forall y :: y in kept ==> multiset(kept)[y] > 0;
    t.(subtasks := kept)
  }

  /** `deleteTask`: drop every task with id `x` and strip `x` from every
      remaining `subtasks` list. Children of `x` stay, with their now dangling
      `parentTaskId`. */
  function DeleteTask(tasks: seq<Task>, x: string): (r: seq<Task>)
    ensures |r| == Count(NotId(x), tasks) == |tasks| - Count(HasId(x), tasks)
    ensures forall i :: 0 <= i < |r| ==> r[i].id != x && x !in r[i].subtasks
  {
    var kept := Filter(NotId(x), tasks);
    CountDisjoint(HasId(x), NotId(x), tasks);
    CountAll(Or(HasId(x), NotId(x)), tasks);
    KeptIds(tasks, x);
    seq(|kept|, i requires 0 <= i < |kept| => StripChild(kept[i], x))
  }

  lemma KeptIds(tasks: seq<Task>, x: string)
    ensures forall i :: 0 <= i < |Filter(NotId(x), tasks)| ==> Filter(NotId(x), tasks)[i].id != x
  {
    var kept := Filter(NotId(x), tasks);
    forall i | 0 <= i < |kept|
      ensures kept[i].id != x
    {
      assert multiset(kept)[kept[i]] > 0;
    }
  }

  /** `setFilters`: shallow-merge the given criteria into the current ones. */
  function SetFilters(filters: Filters, patch: FiltersPatch): (r: Filters)
    ensures patch.status.Some? ==> r.status == patch.status.value
    ensures patch.status.None? ==> r.status == filters.status
    ensures patch.priority.Some? ==> r.priority == patch.priority.value
    ensures patch.priority.None? ==> r.priority == filters.priority
    ensures patch.assignee.Some? ==> r.assignee == patch.assignee.value
    ensures patch.assignee.None? ==> r.assignee == filters.assignee
  {
    Filters(patch.status.GetOr(filters.status), patch.priority.GetOr(filters.priority),
            patch.assignee.GetOr(filters.assignee))
  }

  /** A patch that names no criterion. */
  const NoFilters := FiltersPatch(None, None, None)

  /** The single patch with the effect of `first` followed by `second`: each
      criterion `second` names wins, the others come from `first`. */
  function ThenPatch(first: FiltersPatch, second: FiltersPatch): FiltersPatch {
    FiltersPatch(if second.status.Some? then second.status else first.status,
                 if second.priority.Some? then second.priority else first.priority,
                 if second.assignee.Some? then second.assignee else first.assignee)
  }

  /** Merging an empty patch keeps the criteria as they are. */
  lemma SetFiltersEmpty(filters: Filters)
    ensures SetFilters(filters, NoFilters) == filters
  {
  }

  /** Two merges in a row are one merge of the combined patch. */
  lemma SetFiltersTwice(filters: Filters, first: FiltersPatch, second: FiltersPatch)
    ensures SetFilters(SetFilters(filters, first), second) == SetFilters(filters, ThenPatch(first, second))
  {
  }

  /** Merging the same patch twice is merging it once. */
  lemma SetFiltersIdempotent(filters: Filters, patch: FiltersPatch)
    ensures SetFilters(SetFilters(filters, patch), patch) == SetFilters(filters, patch)
  {
    SetFiltersTwice(filters, patch, patch);
    assert ThenPatch(patch, patch) == patch;
  }

  /** The index `reorderTasks` splices the dragged task (found at `d`) back in
      at, for a target found at `t`: after the target unless the position is
      `"before"`, one less when the removal shifted the target down. */
  function AdjustedIndex(d: nat, t: nat, position: string): int {
    var newTargetIndex := if position == "before" then t else t + 1;
    if d < t then newTargetIndex - 1 else newTargetIndex
  }

  /** `reorderTasks`: take the dragged task out and splice it back in next to
      the target, compensating the target index for the removal when the
      dragged task sat before it. Any position other than `"before"` means
      after. A missing id on either side changes nothing. */
  function ReorderTasks(tasks: seq<Task>, draggedId: string, targetId: string, position: string): (r: seq<Task>)
    ensures |r| == |tasks|
    ensures multiset(r) == multiset(tasks)
    ensures FindIndex(HasId(draggedId), tasks).None? || FindIndex(HasId(targetId), tasks).None? ==> r == tasks
  {
    match FindIndex(HasId(draggedId), tasks)
    case None => tasks
    case Some(d) =>
      match FindIndex(HasId(targetId), tasks)
      case None => tasks
      case Some(t) => Move(tasks, d, AdjustedIndex(d, t, position))
  }

  /** `moveTaskToProject`: set the project of the first task with that id,
      unless it is already there. Links are not touched. */
  function MoveTaskToProject(tasks: seq<Task>, taskId: string, projectId: string): (r: seq<Task>)
    ensures |r| == |tasks|
    ensures forall i :: 0 <= i < |tasks| ==> r[i].(projectId := tasks[i].projectId) == tasks[i]
    ensures forall i :: 0 <= i < |tasks| && r[i] != tasks[i] ==>
              IsFirstWithId(tasks, i, taskId) && tasks[i].projectId != projectId
    ensures forall i :: IsFirstWithId(tasks, i, taskId) ==> r[i].projectId == projectId
  {
    match FindIndex(HasId(taskId), tasks)
    case None => tasks
    case Some(i) =>
      if tasks[i].projectId == projectId then tasks
      else tasks[i := tasks[i].(projectId := projectId)]
  }

  /** `findIndex` on an id returns exactly the first index holding it. */
  lemma FindIndexFirst(tasks: seq<Task>, id: string, i: int)
    ensures FindIndex(HasId(id), tasks) == Some(i) <==> IsFirstWithId(tasks, i, id)
  {
  }

  /** With both ids present, reordering moves the first task with the dragged
      id to the adjusted index. */
  lemma ReorderIsMove(tasks: seq<Task>, draggedId: string, targetId: string, position: string, d: nat, t: nat)
    requires IsFirstWithId(tasks, d, draggedId) && IsFirstWithId(tasks, t, targetId)
    ensures ReorderTasks(tasks, draggedId, targetId, position) == Move(tasks, d, AdjustedIndex(d, t, position))
  {
    FindIndexFirst(tasks, draggedId, d);
    FindIndexFirst(tasks, targetId, t);
  }
}

=== FILE: tasks_slice_lemmas.dfy ===
/** Properties of the task store reducers: the parent/subtask invariant, the
    placement done by drag-and-drop reordering, and idempotence laws. */
module TasksSliceLemmas {
  import opened Options
  import opened Seqs
  import opened TasksSlice

  // ---------------------------------------------------------------------------
  // Helpers about the link sets

  /** Lists that agree index by index on ids and parent links have the same children. */
  lemma ChildIdsSameLinks(a: seq<Task>, b: seq<Task>)
    requires |a| == |b|
    requires forall i :: 0 <= i < |a| ==> a[i].id == b[i].id && a[i].parentTaskId == b[i].parentTaskId
    ensures forall p :: ChildIds(a, p) == ChildIds(b, p)
  {
    forall p
      ensures ChildIds(a, p) == ChildIds(b, p)
    {
      forall y | y in ChildIds(a, p)
        ensures y in ChildIds(b, p)
      {
        var t :| t in a && t.parentTaskId == Some(p) && t.id == y;
        var i :| 0 <= i < |a| && a[i] == t;
        assert b[i] in b;
      }
      forall y | y in ChildIds(b, p)
        ensures y in ChildIds(a, p)
      {
        var t :| t in b && t.parentTaskId == Some(p) && t.id == y;
        var i :| 0 <= i < |b| && b[i] == t;
        assert a[i] in a;
      }
    }
  }

  /** Lists with the same elements have the same children. */
  lemma ChildIdsSameElements(a: seq<Task>, b: seq<Task>)
    requires forall t :: t in a <==> t in b
    ensures forall p :: ChildIds(a, p) == ChildIds(b, p)
  {
  }

  lemma ChildIdsAppend(a: seq<Task>, t: Task, p: string)
    ensures ChildIds(a + [t], p) == ChildIds(a, p) + (if t.parentTaskId == Some(p) then {t.id} else {})
  {
    assert forall u :: u in a + [t] <==> u in a || u == t;
  }

  /** Distinct ids follow for any list whose elements occur in a list with
      distinct ids, no more often than there. */
  lemma ValidIdsOfSubmultiset(a: seq<Task>, b: seq<Task>)
    requires ValidIds(b)
    requires forall v :: multiset(a)[v] <= multiset(b)[v]
    ensures ValidIds(a)
  {
    assert NoDup(b);
    NoDupIffSingletons(b);
    NoDupIffSingletons(a);
    forall i, j | 0 <= i < j < |a|
      ensures a[i].id != a[j].id
    {
      assert a[i] in multiset(b) && a[j] in multiset(b);
      var x :| 0 <= x < |b| && b[x] == a[i];
      var y :| 0 <= y < |b| && b[y] == a[j];
      assert x != y;
    }
    forall i | 0 <= i < |a|
      ensures a[i].id != ""
    {
      assert a[i] in multiset(b);
    }
  }

  // ---------------------------------------------------------------------------
  // The hierarchy invariant

  lemma InitialValidIds()
    ensures ValidIds(InitialTasks)
  {
  }

  /** In the seed data only task 1 has children, namely tasks 2 and 3. */
  lemma InitialChildren(q: string)
    ensures ChildIds(InitialTasks, q) == if q == "1" then {"2", "3"} else {}
  {
    var ts := InitialTasks;
    assert ts[..0] == [];
    assert ts[..1] == ts[..0] + [ts[0]];
    assert ts[..2] == ts[..1] + [ts[1]];
    assert ts[..3] == ts[..2] + [ts[2]];
    assert ts == ts[..3] + [ts[3]];
    ChildIdsAppend(ts[..0], ts[0], q);
    ChildIdsAppend(ts[..1], ts[1], q);
    ChildIdsAppend(ts[..2], ts[2], q);
    ChildIdsAppend(ts[..3], ts[3], q);
  }

  /** The seed data satisfies the invariant: task 1 caches exactly its two children. */
  lemma InitialTasksConsistent()
    ensures ValidIds(InitialTasks)
    ensures HierarchyConsistent(InitialTasks)
  {
    InitialValidIds();
    var ts := InitialTasks;
    forall u | u in ts
      ensures Elems(u.subtasks) == ChildIds(ts, u.id)
    {
      InitialChildren(u.id);
      assert u == ts[0] || u == ts[1] || u == ts[2] || u == ts[3];
      assert Elems(["2", "3"]) == {"2", "3"};
    }
  }

  /** A fresh id is nobody's child and has no children. */
  lemma FreshIdUnlinked(tasks: seq<Task>, freshId: string, p: string)
    requires IsFreshId(tasks, freshId)
    ensures freshId !in ChildIds(tasks, p)
    ensures ChildIds(tasks, freshId) == {}
  {
    forall t | t in tasks
      ensures t.id != freshId && t.parentTaskId != Some(freshId)
    {
      var i :| 0 <= i < |tasks| && tasks[i] == t;
    }
  }

  /** `addTask` adds exactly the new id to the children of the payload's parent. */
  lemma AddTaskChildIds(tasks: seq<Task>, payload: Task, freshId: string, now: string, p: string)
    requires payload.parentTaskId != Some(freshId)
    ensures ChildIds(AddTask(tasks, payload, freshId, now), p)
         == ChildIds(tasks, p) + (if payload.parentTaskId == Some(p) then {freshId} else {})
  {
    var r := AddTask(tasks, payload, freshId, now);
    var s := tasks + [r[|tasks|]];
    assert forall i :: 0 <= i < |r| ==> r[i].id == s[i].id && r[i].parentTaskId == s[i].parentTaskId;
    ChildIdsSameLinks(r, s);
    ChildIdsAppend(tasks, r[|tasks|], p);
  }

  /** The cache of an old task after `addTask`: the parent slot gains the new id,
      every other one is kept. */
  lemma AddTaskCacheAt(tasks: seq<Task>, payload: Task, freshId: string, now: string, k: nat)
    requires ValidIds(tasks) && HierarchyConsistent(tasks)
    requires IsFreshId(tasks, freshId) && payload.parentTaskId != Some(freshId)
    requires k < |tasks|
    ensures Elems(AddTask(tasks, payload, freshId, now)[k].subtasks)
         == ChildIds(tasks, tasks[k].id) + (if payload.parentTaskId == Some(tasks[k].id) then {freshId} else {})
  {
    var r := AddTask(tasks, payload, freshId, now);
    var prev := tasks[k].subtasks;
    assert tasks[k] in tasks;
    FreshIdUnlinked(tasks, freshId, tasks[k].id);
    assert freshId !in prev;
    if IsParentSlot(tasks, payload, k) {
      var nu := r[k].subtasks;
      assert nu == prev + [freshId] by {
        assert nu[..|prev|] == prev;
        var m :| 0 <= m < |nu| && nu[m] == freshId;
        assert m >= |prev|;
      }
    }
  }

  lemma AddTaskKeepsValidIds(tasks: seq<Task>, payload: Task, freshId: string, now: string)
    requires ValidIds(tasks)
    requires IsFreshId(tasks, freshId) && payload.parentTaskId != Some(freshId)
    ensures ValidIds(AddTask(tasks, payload, freshId, now))
  {
    var r := AddTask(tasks, payload, freshId, now);
    assert forall i :: 0 <= i < |tasks| ==> r[i].id == tasks[i].id;
  }

  /** After `addTask` the cache at index `k` matches the links. */
  lemma AddTaskConsistentAt(tasks: seq<Task>, payload: Task, freshId: string, now: string, k: nat)
    requires ValidIds(tasks) && HierarchyConsistent(tasks)
    requires IsFreshId(tasks, freshId) && payload.parentTaskId != Some(freshId)
    requires k <= |tasks|
    ensures var r := AddTask(tasks, payload, freshId, now);
            Elems(r[k].subtasks) == ChildIds(r, r[k].id)
  {
    var r := AddTask(tasks, payload, freshId, now);
    AddTaskChildIds(tasks, payload, freshId, now, r[k].id);
    if k == |tasks| {
      FreshIdUnlinked(tasks, freshId, freshId);
    } else {
      AddTaskCacheAt(tasks, payload, freshId, now, k);
    }
  }

  /** `addTask` with a fresh id keeps ids valid and every `subtasks` cache exact. */
  lemma AddTaskKeepsHierarchy(tasks: seq<Task>, payload: Task, freshId: string, now: string)
    requires ValidIds(tasks) && HierarchyConsistent(tasks)
    requires IsFreshId(tasks, freshId) && payload.parentTaskId != Some(freshId)
    ensures ValidIds(AddTask(tasks, payload, freshId, now))
    ensures HierarchyConsistent(AddTask(tasks, payload, freshId, now))
  {
    var r := AddTask(tasks, payload, freshId, now);
    AddTaskKeepsValidIds(tasks, payload, freshId, now);
    forall u | u in r
      ensures Elems(u.subtasks) == ChildIds(r, u.id)
    {
      var k :| 0 <= k < |r| && r[k] == u;
      AddTaskConsistentAt(tasks, payload, freshId, now, k);
    }
  }

  lemma KeptChildIdsSub(tasks: seq<Task>, x: string, p: string)
    ensures ChildIds(Filter(NotId(x), tasks), p) <= ChildIds(tasks, p) - {x}
  {
    var kept := Filter(NotId(x), tasks);
    forall y | y in ChildIds(kept, p)
      ensures y in ChildIds(tasks, p) - {x}
    {
      var t :| t in kept && t.parentTaskId == Some(p) && t.id == y;
      assert multiset(kept)[t] > 0;
    }
  }

  lemma KeptChildIdsSuper(tasks: seq<Task>, x: string, p: string)
    ensures ChildIds(tasks, p) - {x} <= ChildIds(Filter(NotId(x), tasks), p)
  {
    var kept := Filter(NotId(x), tasks);
    forall y | y in ChildIds(tasks, p) - {x}
      ensures y in ChildIds(kept, p)
    {
      var t :| t in tasks && t.parentTaskId == Some(p) && t.id == y;
      assert multiset(tasks)[t] > 0;
      assert t in multiset(kept);
    }
  }

  /** Stripping the fresh id from a cache after `addTask` restores the old task. */
  lemma StripUndoesLink(tasks: seq<Task>, payload: Task, freshId: string, now: string, k: nat)
    requires HierarchyConsistent(tasks)
    requires IsFreshId(tasks, freshId) && payload.parentTaskId != Some(freshId)
    requires k < |tasks|
    ensures StripChild(AddTask(tasks, payload, freshId, now)[k], freshId) == tasks[k]
  {
    var r := AddTask(tasks, payload, freshId, now);
    var prev := tasks[k].subtasks;
    assert tasks[k] in tasks;
    FreshIdUnlinked(tasks, freshId, tasks[k].id);
    assert freshId !in prev;
    assert forall i :: 0 <= i < |prev| ==> NotEqual(freshId)(prev[i]);
    FilterKeepsAll(NotEqual(freshId), prev);
    if r[k].subtasks != prev {
      var nu := r[k].subtasks;
      assert nu == prev + [freshId] by {
        assert nu[..|prev|] == prev;
        var m :| 0 <= m < |nu| && nu[m] == freshId;
        assert m >= |prev|;
      }
      FilterAppend(NotEqual(freshId), prev, [freshId]);
      FilterSingle(NotEqual(freshId), freshId);
    }
  }

  /** The filter step of `deleteTask` on the fresh id keeps the old tasks. */
  lemma AddedIsOnlyMatch(tasks: seq<Task>, payload: Task, freshId: string, now: string)
    requires IsFreshId(tasks, freshId) && payload.parentTaskId != Some(freshId)
    ensures Filter(NotId(freshId), AddTask(tasks, payload, freshId, now))
         == AddTask(tasks, payload, freshId, now)[..|tasks|]
  {
    var r := AddTask(tasks, payload, freshId, now);
    var n := |tasks|;
    var front := r[..n];
    assert r == front + [r[n]];
    forall i | 0 <= i < n
      ensures NotId(freshId)(front[i])
    {
      assert front[i].id == tasks[i].id;
      assert tasks[i] in tasks;
    }
    FilterAppend(NotId(freshId), front, [r[n]]);
    FilterKeepsAll(NotId(freshId), front);
    FilterSingle(NotId(freshId), r[n]);
  }

  /** Deleting the fresh id right after `addTask` gives back the old list: the
      new task goes, and so does its id in the parent's cache. */
  lemma DeleteUndoesAdd(tasks: seq<Task>, payload: Task, freshId: string, now: string)
    requires HierarchyConsistent(tasks)
    requires IsFreshId(tasks, freshId) && payload.parentTaskId != Some(freshId)
    ensures DeleteTask(AddTask(tasks, payload, freshId, now), freshId) == tasks
  {
    var r := AddTask(tasks, payload, freshId, now);
    AddedIsOnlyMatch(tasks, payload, freshId, now);
    var d := DeleteTask(r, freshId);
    assert |d| == |tasks|;
    forall i | 0 <= i < |tasks|
      ensures d[i] == tasks[i]
    {
      assert d[i] == StripChild(r[i], freshId);
      StripUndoesLink(tasks, payload, freshId, now, i);
    }
  }

  /** `deleteTask` removes exactly `x` from every set of children. */
  lemma DeleteTaskChildIds(tasks: seq<Task>, x: string, p: string)
    ensures ChildIds(DeleteTask(tasks, x), p) == ChildIds(tasks, p) - {x}
  {
    var r := DeleteTask(tasks, x);
    var kept := Filter(NotId(x), tasks);
    assert forall i :: 0 <= i < |r| ==> r[i].id == kept[i].id && r[i].parentTaskId == kept[i].parentTaskId;
    ChildIdsSameLinks(r, kept);
    KeptChildIdsSub(tasks, x, p);
    KeptChildIdsSuper(tasks, x, p);
  }

  /** After `deleteTask` a cache holds what it held before, minus `x`. */
  lemma DeleteTaskCacheAt(tasks: seq<Task>, x: string, k: nat)
    requires k < |DeleteTask(tasks, x)|
    ensures var u := DeleteTask(tasks, x)[k];
            exists t :: t in tasks && t.id == u.id && Elems(u.subtasks) == Elems(t.subtasks) - {x}
  {
    var u := DeleteTask(tasks, x)[k];
    var kept := Filter(NotId(x), tasks);
    var t := kept[k];
    assert multiset(kept)[t] > 0;
    assert t in tasks;
    var stripped := Filter(NotEqual(x), t.subtasks);
    assert u.subtasks == stripped;
    forall y
      ensures y in stripped <==> y in t.subtasks && y != x
    {
      assert y in stripped <==> multiset(stripped)[y] > 0;
      assert y in t.subtasks <==> multiset(t.subtasks)[y] > 0;
    }
    assert Elems(u.subtasks) == Elems(t.subtasks) - {x};
  }

  lemma DeleteTaskKeepsValidIds(tasks: seq<Task>, x: string)
    requires ValidIds(tasks)
    ensures ValidIds(DeleteTask(tasks, x))
  {
    var r, kept := DeleteTask(tasks, x), Filter(NotId(x), tasks);
    ValidIdsOfSubmultiset(kept, tasks);
    assert forall i :: 0 <= i < |r| ==> r[i].id == kept[i].id;
  }

  /** After `deleteTask` the cache at index `k` matches the links. */
  lemma DeleteTaskConsistentAt(tasks: seq<Task>, x: string, k: nat)
    requires HierarchyConsistent(tasks)
    requires k < |DeleteTask(tasks, x)|
    ensures var r := DeleteTask(tasks, x);
            Elems(r[k].subtasks) == ChildIds(r, r[k].id)
  {
    var r := DeleteTask(tasks, x);
    DeleteTaskCacheAt(tasks, x, k);
    DeleteTaskChildIds(tasks, x, r[k].id);
  }

  /** `deleteTask` keeps ids valid and every `subtasks` cache exact: the deleted
      id leaves both the list and every cache. */
  lemma DeleteTaskKeepsHierarchy(tasks: seq<Task>, x: string)
    requires ValidIds(tasks) && HierarchyConsistent(tasks)
    ensures ValidIds(DeleteTask(tasks, x))
    ensures HierarchyConsistent(DeleteTask(tasks, x))
  {
    var r := DeleteTask(tasks, x);
    DeleteTaskKeepsValidIds(tasks, x);
    forall u | u in r
      ensures Elems(u.subtasks) == ChildIds(r, u.id)
    {
      var k :| 0 <= k < |r| && r[k] == u;
      DeleteTaskConsistentAt(tasks, x, k);
    }
  }

  /** Reordering keeps ids valid and every `subtasks` cache exact. */
  lemma ReorderKeepsHierarchy(tasks: seq<Task>, draggedId: string, targetId: string, position: string)
    requires ValidIds(tasks) && HierarchyConsistent(tasks)
    ensures ValidIds(ReorderTasks(tasks, draggedId, targetId, position))
    ensures HierarchyConsistent(ReorderTasks(tasks, draggedId, targetId, position))
  {
    var r := ReorderTasks(tasks, draggedId, targetId, position);
    ValidIdsOfSubmultiset(r, tasks);
    assert forall t :: t in r <==> t in multiset(r);
    assert forall t :: t in tasks <==> t in multiset(tasks);
    ChildIdsSameElements(r, tasks);
  }

  /** Moving a task to another project keeps ids valid and every cache exact. */
  lemma MoveKeepsHierarchy(tasks: seq<Task>, taskId: string, projectId: string)
    requires ValidIds(tasks) && HierarchyConsistent(tasks)
    ensures ValidIds(MoveTaskToProject(tasks, taskId, projectId))
    ensures HierarchyConsistent(MoveTaskToProject(tasks, taskId, projectId))
  {
    var r := MoveTaskToProject(tasks, taskId, projectId);
    assert forall i :: 0 <= i < |r| ==>
      r[i].id == tasks[i].id && r[i].parentTaskId == tasks[i].parentTaskId && r[i].subtasks == tasks[i].subtasks;
    ChildIdsSameLinks(r, tasks);
    forall u | u in r
      ensures Elems(u.subtasks) == ChildIds(r, u.id)
    {
      var k :| 0 <= k < |r| && r[k] == u;
      assert tasks[k] in tasks;
    }
  }

  // ---------------------------------------------------------------------------
  // deleteTask

  /** Every survivor appears with only `x` stripped from its cache, and nothing else appears. */
  lemma DeleteTaskSurvivors(tasks: seq<Task>, x: string)
    ensures forall t :: t in tasks && t.id != x ==> StripChild(t, x) in DeleteTask(tasks, x)
    ensures forall i :: 0 <= i < |DeleteTask(tasks, x)| ==>
              exists t :: t in tasks && t.id != x && DeleteTask(tasks, x)[i] == StripChild(t, x)
  {
    var r := DeleteTask(tasks, x);
    var kept := Filter(NotId(x), tasks);
    forall t | t in tasks && t.id != x
      ensures StripChild(t, x) in r
    {
      assert multiset(tasks)[t] > 0;
      assert t in multiset(kept);
      var k :| 0 <= k < |kept| && kept[k] == t;
      assert r[k] == StripChild(t, x);
    }
    forall i | 0 <= i < |r|
      ensures exists t :: t in tasks && t.id != x && r[i] == StripChild(t, x)
    {
      assert multiset(kept)[kept[i]] > 0;
      assert kept[i] in tasks;
    }
  }

  /** Survivors keep their relative order. */
  lemma DeleteTaskKeepsOrder(tasks: seq<Task>, x: string)
    ensures IsSubsequence(Filter(NotId(x), tasks), tasks)
    ensures forall i :: 0 <= i < |DeleteTask(tasks, x)| ==>
              DeleteTask(tasks, x)[i].(subtasks := Filter(NotId(x), tasks)[i].subtasks) == Filter(NotId(x), tasks)[i]
  {
    FilterIsSubsequence(NotId(x), tasks);
  }

  /** Deleting the same id twice is deleting it once. */
  lemma DeleteTaskIdempotent(tasks: seq<Task>, x: string)
    ensures DeleteTask(DeleteTask(tasks, x), x) == DeleteTask(tasks, x)
  {
    var r := DeleteTask(tasks, x);
    FilterKeepsAll(NotId(x), r);
    forall i | 0 <= i < |r|
      ensures StripChild(r[i], x) == r[i]
    {
      FilterKeepsAll(NotEqual(x), r[i].subtasks);
    }
  }

  // ---------------------------------------------------------------------------
  // updateTask and moveTaskToProject

  /** A payload naming only the id changes nothing. */
  lemma UpdateTaskIdOnly(tasks: seq<Task>, id: string)
    ensures UpdateTask(tasks, IdOnly(id)) == tasks
  {
  }

  /** A payload spreading a whole task stores exactly that task at the first
      index with its id; fields absent from a payload keep their value. */
  lemma UpdateTaskWhole(tasks: seq<Task>, u: Task, i: nat)
    requires IsFirstWithId(tasks, i, u.id)
    ensures UpdateTask(tasks, WholeTask(u)) == tasks[i := u]
  {
  }

  /** Moving is idempotent. */
  lemma MoveIdempotent(tasks: seq<Task>, taskId: string, projectId: string)
    ensures MoveTaskToProject(MoveTaskToProject(tasks, taskId, projectId), taskId, projectId)
         == MoveTaskToProject(tasks, taskId, projectId)
  {
    var r := MoveTaskToProject(tasks, taskId, projectId);
    match FindIndex(HasId(taskId), tasks)
    case None =>
    case Some(i) =>
      assert IsFirstWithId(r, i, taskId);
      assert FindIndex(HasId(taskId), r) == Some(i);
  }

  /** Moving a task that is missing, or already in the project, changes nothing. */
  lemma MoveNoOp(tasks: seq<Task>, taskId: string, projectId: string)
    requires forall i :: IsFirstWithId(tasks, i, taskId) ==> tasks[i].projectId == projectId
    ensures MoveTaskToProject(tasks, taskId, projectId) == tasks
  {
  }

  // ---------------------------------------------------------------------------
  // reorderTasks

  /** Dropping before another task puts the dragged task immediately before the
      target; every other task keeps its relative order. */
  lemma ReorderBefore(tasks: seq<Task>, draggedId: string, targetId: string, position: string, d: nat, t: nat)
    requires IsFirstWithId(tasks, d, draggedId) && IsFirstWithId(tasks, t, targetId) && d != t
    requires position == "before"
    ensures var r, p := ReorderTasks(tasks, draggedId, targetId, position), if d < t then t - 1 else t;
            && p + 1 < |r|
            && r[p] == tasks[d]
            && r[p + 1] == tasks[t]
            && RemoveAt(r, p) == RemoveAt(tasks, d)
  {
    ReorderIsMove(tasks, draggedId, targetId, position, d, t);
    assert AdjustedIndex(d, t, position) == if d < t then t - 1 else t;
    MoveBefore(tasks, d, t);
  }

  /** Dropping after another task puts the dragged task immediately after the
      target; every other task keeps its relative order. */
  lemma ReorderAfter(tasks: seq<Task>, draggedId: string, targetId: string, position: string, d: nat, t: nat)
    requires IsFirstWithId(tasks, d, draggedId) && IsFirstWithId(tasks, t, targetId) && d != t
    requires position != "before"
    ensures var r, p := ReorderTasks(tasks, draggedId, targetId, position), if d < t then t else t + 1;
            && 0 < p < |r|
            && r[p] == tasks[d]
            && r[p - 1] == tasks[t]
            && RemoveAt(r, p) == RemoveAt(tasks, d)
  {
    ReorderIsMove(tasks, draggedId, targetId, position, d, t);
    assert AdjustedIndex(d, t, position) == if d < t then t else t + 1;
    MoveAfter(tasks, d, t);
  }

  /** Dropping a task on itself before itself, or after itself at the end of
      the list, changes nothing. */
  lemma ReorderOntoItselfStays(tasks: seq<Task>, id: string, position: string, d: nat)
    requires IsFirstWithId(tasks, d, id)
    requires position == "before" || d == |tasks| - 1
    ensures ReorderTasks(tasks, id, id, position) == tasks
  {
    ReorderIsMove(tasks, id, id, position, d, d);
    MoveInPlace(tasks, d, AdjustedIndex(d, d, position));
  }

  /** Dropping a task after itself anywhere but at the end moves it past its successor. */
  lemma ReorderOntoItselfSwaps(tasks: seq<Task>, id: string, position: string, d: nat)
    requires IsFirstWithId(tasks, d, id)
    requires position != "before" && d < |tasks| - 1
    ensures ReorderTasks(tasks, id, id, position) == tasks[..d] + [tasks[d + 1], tasks[d]] + tasks[d + 2..]
  {
    ReorderIsMove(tasks, id, id, position, d, d);
    assert AdjustedIndex(d, d, position) == d + 1;
    MoveOneDown(tasks, d);
  }

  lemma PairIndices(a: Task, b: Task)
    requires a.id != b.id
    ensures IsFirstWithId([a, b], 0, a.id) && IsFirstWithId([a, b], 1, b.id)
  {
  }

  /** The two-task case: dragging the second task before the first swaps them. */
  lemma ReorderSwapsPair(a: Task, b: Task, position: string)
    requires a.id != b.id && position == "before"
    ensures ReorderTasks([a, b], b.id, a.id, position) == [b, a]
  {
    PairIndices(a, b);
    ReorderIsMove([a, b], b.id, a.id, position, 1, 0);
    assert AdjustedIndex(1, 0, position) == 0;
    MoveSwapsPair(a, b);
  }
}

=== FILE: text.dfy ===
/** The string primitives the views call: `trim`, `toLowerCase`, `includes`,
    `startsWith`, `split` on one character and `join`. */
module Text {

  /** The white-space characters `String.prototype.trim` strips (the ASCII ones,
      no-break space, the byte-order mark and the two Unicode line separators). */
  const WhitespaceChars: set<char> :=
    {' ', '\t', '\n', '\r', '\U{000B}', '\U{000C}', '\U{00A0}', '\U{FEFF}', '\U{2028}', '\U{2029}'}

  predicate IsWhitespace(c: char) {
    c in WhitespaceChars
  }

  predicate AllWhitespace(s: string) {
    forall i :: 0 <= i < |s| ==> IsWhitespace(s[i])
  }

  /** Neither end of `s` is white space: what `trim` guarantees of its result. */
  predicate IsTrimmed(s: string) {
    |s| > 0 ==> !IsWhitespace(s[0]) && !IsWhitespace(s[|s| - 1])
  }

  function TrimStart(s: string): (r: string)
    ensures |r| <= |s| && r == s[|s| - |r|..]
    ensures AllWhitespace(s[..|s| - |r|])
    ensures |r| > 0 ==> !IsWhitespace(r[0])
    decreases |s|
  {
    if |s| > 0 && IsWhitespace(s[0]) then TrimStart(s[1..]) else s
  }

  function TrimEnd(s: string): (r: string)
    ensures |r| <= |s| && r == s[..|r|]
    ensures AllWhitespace(s[|r|..])
    ensures |r| > 0 ==> !IsWhitespace(r[|r| - 1])
    decreases |s|
  {
    if |s| > 0 && IsWhitespace(s[|s| - 1]) then TrimEnd(s[..|s| - 1]) else s
  }

  /** `s.trim()`. */
  function Trim(s: string): (r: string)
    ensures |r| <= |s|
    ensures IsTrimmed(r)
    ensures r == "" <==> AllWhitespace(s)
  {
    var t := TrimStart(s);
    var r := TrimEnd(t);
    TrimBlank(s, t, r);
    r
  }

  lemma TrimBlank(s: string, t: string, r: string)
    requires t == TrimStart(s) && r == TrimEnd(t)
    ensures |r| > 0 ==> !IsWhitespace(r[0])
    ensures r == "" <==> AllWhitespace(s)
  {
    if |r| > 0 {
      TrimBlankNonEmpty(s, t, r);
    } else {
      TrimBlankEmpty(s, t, r);
    }
  }

  lemma TrimBlankNonEmpty(s: string, t: string, r: string)
    requires t == TrimStart(s) && r == TrimEnd(t) && |r| > 0
    ensures !IsWhitespace(r[0]) && !AllWhitespace(s)
  {
    var k := |s| - |t|;
    assert r[0] == t[0];
    assert t[0] == s[k];
  }

  lemma TrimBlankEmpty(s: string, t: string, r: string)
    requires t == TrimStart(s) && r == TrimEnd(t) && |r| == 0
    ensures AllWhitespace(s)
  {
    assert t[|r|..] == t;
    assert t == "";
    forall i | 0 <= i < |s|
      ensures IsWhitespace(s[i])
    {
      assert s[..|s|][i] == s[i];
    }
  }

  /** Every character `trim` keeps comes from its input. */
  lemma TrimKeepsCharacters(s: string)
    ensures forall i :: 0 <= i < |Trim(s)| ==> Trim(s)[i] in s
  {
    var t := TrimStart(s);
    var r := TrimEnd(t);
    forall i | 0 <= i < |r|
      ensures r[i] in s
    {
      assert r[i] == t[i];
      assert t[i] == s[|s| - |t|..][i];
    }
  }

  lemma {:induction false} TrimStartPadded(w: string, m: string)
    requires AllWhitespace(w)
    requires |m| > 0 ==> !IsWhitespace(m[0])
    ensures TrimStart(w + m) == m
    decreases |w|
  {
    if |w| > 0 {
      assert (w + m)[1..] == w[1..] + m;
      TrimStartPadded(w[1..], m);
    } else {
      assert w + m == m;
    }
  }

  lemma {:induction false} TrimEndPadded(m: string, w: string)
    requires AllWhitespace(w)
    requires |m| > 0 ==> !IsWhitespace(m[|m| - 1])
    ensures TrimEnd(m + w) == m
    decreases |w|
  {
    if |w| > 0 {
      assert (m + w)[..|m + w| - 1] == m + w[..|w| - 1];
      TrimEndPadded(m, w[..|w| - 1]);
    } else {
      assert m + w == m;
    }
  }

  /** `trim` removes exactly the white-space padding around a trimmed core. */
  lemma TrimPadded(w: string, m: string, w': string)
    requires AllWhitespace(w) && AllWhitespace(w') && IsTrimmed(m)
    ensures Trim(w + m + w') == m
  {
    if |m| == 0 {
      assert AllWhitespace(w + m + w');
    } else {
      assert w + m + w' == w + (m + w');
      TrimStartPadded(w, m + w');
      TrimEndPadded(m, w');
    }
  }

  lemma TrimIdempotent(s: string)
    ensures Trim(Trim(s)) == Trim(s)
  {
    var r := Trim(s);
    assert "" + r + "" == r;
    TrimPadded("", r, "");
  }

  /** The ASCII part of `toLowerCase`. */
  function LowerChar(c: char): char {
    if 'A' <= c <= 'Z' then (c as int + 32) as char else c
  }

  /** `s.toLowerCase()`. */
  function ToLower(s: string): (r: string)
    ensures |r| == |s|
  {
    seq(|s|, i requires 0 <= i < |s| => LowerChar(s[i]))
  }

  /** Lower-casing twice is lower-casing once. */
  lemma ToLowerIdempotent(s: string)
    ensures ToLower(ToLower(s)) == ToLower(s)
  {
    assert forall i :: 0 <= i < |s| ==> LowerChar(LowerChar(s[i])) == LowerChar(s[i]);
  }

  predicate IsPrefix(p: string, s: string) {
    |p| <= |s| && s[..|p|] == p
  }

  /** `s.startsWith(p)`. */
  function StartsWith(s: string, p: string): bool {
    IsPrefix(p, s)
  }

  /** `q` occurs in `s` starting at offset `i`. */
  predicate OccursAt(s: string, q: string, i: int) {
    0 <= i <= |s| - |q| && s[i..i + |q|] == q
  }

  /** `s.includes(q)`: `q` occurs in `s` at some offset. */
  function Includes(s: string, q: string): (b: bool)
    ensures b <==> exists i :: OccursAt(s, q, i)
    decreases |s|
  {
    if IsPrefix(q, s) then
      assert OccursAt(s, q, 0);
      true
    else if |s| == 0 then false
    else
      var b := Includes(s[1..], q);
      assert forall i :: OccursAt(s[1..], q, i) <==> OccursAt(s, q, i + 1);
      assert !OccursAt(s, q, 0);
      assert forall i :: OccursAt(s, q, i) ==> OccursAt(s[1..], q, i - 1);
      b
  }

  lemma IncludesEmpty(s: string)
    ensures Includes(s, "")
  {
    assert OccursAt(s, "", 0);
  }

  /** `s.split(sep)` for a one-character separator: always at least one piece,
      one more piece than separators, and no piece holds the separator. */
  function Split(s: string, sep: char): (r: seq<string>)
    ensures |r| > 0
    ensures forall i :: 0 <= i < |r| ==> sep !in r[i]
    decreases |s|
  {
    if |s| == 0 then [""]
    else
      var rest := Split(s[1..], sep);
      if s[0] == sep then [""] + rest
      else [[s[0]] + rest[0]] + rest[1..]
  }

  /** There is one more piece than there are separators. */
  lemma {:induction false} SplitCount(s: string, sep: char)
    ensures |Split(s, sep)| == multiset(s)[sep] + 1
    decreases |s|
  {
    if |s| > 0 {
      SplitCount(s[1..], sep);
      assert s == [s[0]] + s[1..];
    }
  }

  /** `parts.join(sep)`. */
  function Join(parts: seq<string>, sep: string): string
    decreases |parts|
  {
    if |parts| == 0 then ""
    else if |parts| == 1 then parts[0]
    else parts[0] + sep + Join(parts[1..], sep)
  }

  lemma JoinConsHead(c: char, p: string, ps: seq<string>, sep: string)
    ensures Join([[c] + p] + ps, sep) == [c] + Join([p] + ps, sep)
  {
    if |ps| > 0 {
      assert ([[c] + p] + ps)[1..] == ps;
      assert ([p] + ps)[1..] == ps;
    }
  }

  /** Splitting then joining with the same separator gives back the string. */
  lemma {:induction false} JoinSplit(s: string, sep: char)
    ensures Join(Split(s, sep), [sep]) == s
    decreases |s|
  {
    if |s| > 0 {
      var rest := Split(s[1..], sep);
      JoinSplit(s[1..], sep);
      assert s == [s[0]] + s[1..];
      if s[0] == sep {
        assert ([""] + rest)[1..] == rest;
      } else {
        assert rest == [rest[0]] + rest[1..];
        JoinConsHead(s[0], rest[0], rest[1..], [sep]);
      }
    }
  }

  lemma {:induction false} SplitNoSeparator(p: string, sep: char)
    requires sep !in p
    ensures Split(p, sep) == [p]
    decreases |p|
  {
    if |p| > 0 {
      SplitNoSeparator(p[1..], sep);
      assert p == [p[0]] + p[1..];
    }
  }

  /** A separator-free head followed by the separator splits off as one piece. */
  lemma {:induction false} SplitAfterPiece(p: string, sep: char, t: string)
    requires sep !in p
    ensures Split(p + [sep] + t, sep) == [p] + Split(t, sep)
    decreases |p|
  {
    if |p| == 0 {
      assert p + [sep] + t == [sep] + t;
      assert ([sep] + t)[1..] == t;
    } else {
      SplitAfterPiece(p[1..], sep, t);
      assert (p + [sep] + t)[1..] == p[1..] + [sep] + t;
      assert p == [p[0]] + p[1..];
    }
  }

  /** Joining separator-free pieces and splitting again gives back the pieces. */
  lemma {:induction false} SplitJoin(parts: seq<string>, sep: char)
    requires |parts| > 0
    requires forall i :: 0 <= i < |parts| ==> sep !in parts[i]
    ensures Split(Join(parts, [sep]), sep) == parts
    decreases |parts|
  {
    if |parts| == 1 {
      SplitNoSeparator(parts[0], sep);
    } else {
      SplitJoin(parts[1..], sep);
      SplitAfterPiece(parts[0], sep, Join(parts[1..], [sep]));
      assert parts == [parts[0]] + parts[1..];
    }
  }
}
